=== FILE: README.md ===
# Peter Weather Shortcodes — a verified model of the decision logic

The plugin renders an OpenWeather "One Call" forecast in a WordPress page through two
shortcodes. `[weather-shortcode]` shows current conditions and a daily forecast.
`[small-craft-advisory]` shows the first severe weather alert. The plugin caches the
provider's answer in a file, `api-cache.json`, and reuses it for a few minutes.

The repository holds two revisions of the same logic, and this model keeps them apart:

- `class-peterweathershortcodes.php` is the class the plugin loads. Its model uses the
  source's own names: `Compass.DegreesToDirectional`, `Icons.FindIcon`,
  `CacheStep.JsonCachedApiResults`, `Warning.WeatherWarningFunc` and
  `Shortcode.WeatherShortcodeFunc`.
- `functions.php` is the older procedural revision. Its members carry the prefix
  `Procedural`, or live in the module `ProceduralCache`.

The two revisions differ in four places, and each is modelled as written:

- the icon boundary is 502 in the class and 522 in functions.php;
- the compass edges are whole degrees in the class and quarter-degree fractions in functions.php;
- the cache lifetime is 300 s in the class and 180 s in functions.php;
- the class empties the cache file only on a falsy answer (lines 246-247), and a `WP_Error` throws at line 242 with the file untouched; functions.php deletes the file whenever the test on line 100 fails.

Modules, one per concern:

- `Wrappers` (`wrappers.dfy`): `Option`.
- `Strings` (`strings.dfy`): substring search, single-character replacement, and split and join, with their round trips.
- `Weather` (`weather.dfy`): the parameters, the decoded payload, the cache file, the outcome of one cache call, and `Env`, the uninterpreted WordPress helpers.
- `Compass` (`compass.dfy`): both bearing classifiers, related to 16-sector arithmetic and to each other.
- `Icons` (`icons.dfy`): both condition-code classifiers, related to a table of half-open ranges and to each other.
- `CacheStep` (`cache_step.dfy`): one call of the class's cache policy as a transition of the cache file, plus its behaviour over a sequence of calls.
- `ProceduralCache` (`procedural_cache.dfy`): `curl_weather_json` and `json_cached_api_results`.
- `Warning` (`warning.dfy`): alert selection and the description-to-list rewrite.
- `Shortcode` (`shortcode.dfy`): the parameter guard, the widget and its day loop, and the whole shortcode.

The clock, the provider's answer, the cache file, `json_decode` and the WordPress escaping
and date helpers are all inputs of the model. Nothing is read from a real file or network.

## Model

| member | source | states |
|---|---|---|
| Compass.DegreesToDirectional | class-peterweathershortcodes.php:147-186 | Total on every integer. The result is always one of the sixteen labels. Every bearing below 11, negatives included, and every bearing from 349 up is "N". |
| Compass.WholeEdgeExamples | class-peterweathershortcodes.php:151-184 | The edges are strict `<` on whole degrees: 10→N, 11→NNE, 100→E, 101→ESE, 348→NNW, 349→N. -1 and 720 give N, because nothing wraps. |
| Compass.WholeChainIsSectorArithmetic | class-peterweathershortcodes.php:151-185 | On [0, 360) the whole-degree chain equals 16-sector arithmetic: label number floor((deg + 11.75) / 22.5) mod 16. |
| Compass.ProceduralDegreesToDirectional | functions.php:6-26 | No value exactly when the argument is not numeric. Otherwise the value is one of the sixteen labels. Below 11.25, negatives included, or from 348.75 up, the value is "N". |
| Compass.FractionalChainIsSectorArithmetic | functions.php:9-25 | On [0, 360) the fractional chain equals the sector rule: label number floor((d + 11.25) / 22.5) mod 16, clockwise from N. |
| Compass.FractionalEdgeExamples | functions.php:9-25 | 0→N, 11.25→NNE, 90→E, 348.74→NNW, 348.75→N, and -30→N (not wrapped). |
| Compass.WholeChainIsShiftedFractional | functions.php:9-25 | On an integer bearing `deg`, the class chain answers what the functions.php chain answers for `deg + 0.5`. |
| Compass.RevisionsAgreeOffDrift | class-peterweathershortcodes.php:151-185 | On whole-degree input the two revisions agree exactly off the eight bearings 11, 56, 101, 146, 191, 236, 281 and 326. |
| Icons.FindIcon | class-peterweathershortcodes.php:191-214 | The icon is always one of 01, 02, 05, 09, 10, 11, 13, 50, and never "04". 511 gives "13" and 800 gives "01", ahead of the range tests. |
| Icons.FindIconIsLadder | class-peterweathershortcodes.php:195-213 | The class chain equals a table of half-open ranges: below 299 →11, [299,502) →09, [502,599) →10, [599,699) →13, [699,799) →50, [799,803) →02, otherwise 05. 511 and 800 are checked first. |
| Icons.FindIconExamples | class-peterweathershortcodes.php:195-213 | Boundary codes: -1, 200 and 298 give 11; 299 and 501 give 09; 502 and 598 give 10; 599 gives 13; 699 gives 50; 799 and 802 give 02; 803 and 900 give 05. |
| Icons.ProceduralFindIcon | functions.php:31-44 | Same range of icons, never "04". 511 gives "13" and 800 gives "01" ahead of the ranges. |
| Icons.ProceduralFindIconIsLadder | functions.php:35-43 | The functions.php chain equals the same kind of table, with the drizzle range [299,522) and the rain range [522,599). |
| Icons.ProceduralFindIconExamples | functions.php:35-43 | Boundary codes: 502 and 521 give 09, 522 gives 10, and 511 still gives 13. |
| Icons.RevisionsDisagreeOnDrizzleBand | functions.php:38 | The revisions disagree exactly on codes 502 to 521 other than 511. There the class says "10" and functions.php says "09". |
| CacheStep.JsonCachedApiResults | class-peterweathershortcodes.php:221-256 | A missing file halts before any request. The provider is asked exactly when the file is older than now − 300 or empty, and the request is `RequestUrl`: the endpoint, `?` and the query of lines 237-238. A served cache leaves the file unchanged and decodes its non-empty text. A body is stored verbatim with time `now`. A falsy answer empties the file and returns exactly the text "There was an error getting the weather data". A `WP_Error` throws at the `isset` test and leaves the file as it was. |
| CacheStep.QuerySplitsIntoFields | class-peterweathershortcodes.php:236-238 | The query splits on `&` into exactly its six fields (an empty one, exclude, units, lat, lon, appid) if and only if lat, lon and appid contain no `&`. |
| CacheStep.QueryIsJoin | class-peterweathershortcodes.php:237-238 | The query that `RequestUrl` appends to the endpoint is those six fields joined by `&`. |
| CacheStep.FailedRefreshForcesNextFetch | class-peterweathershortcodes.php:246-247 | After a falsy answer, the next call asks the provider again, however little time has passed. |
| CacheStep.TransportFailureKeepsFileStale | class-peterweathershortcodes.php:234-242 | A `WP_Error` leaves the stale file untouched, so every later call asks the provider again. |
| CacheStep.StoredBodyServedForLifetime | class-peterweathershortcodes.php:226-234 | After a non-empty body is stored at `now`, a later call asks again exactly when its clock is past now + 300. Until then it serves that body and leaves the file alone. |
| CacheStep.ServingFromCacheIsIdempotent | class-peterweathershortcodes.php:250-255 | A call that serves the cache can be repeated with the same result. |
| CacheStep.AtMostOneFetchPerLifetime | class-peterweathershortcodes.php:226-248 | While the provider answers with non-empty bodies, any run of calls that lie within 300 s of each other makes at most one request. |
| CacheStep.NoFetchWhileFresh | class-peterweathershortcodes.php:234 | A file holding non-empty text, written no more than 300 s before each call, is served throughout without a request. |
| CacheStep.EmptyBodyForcesNextFetch | class-peterweathershortcodes.php:234-244 | An empty body is stored as the empty file, and the next call asks the provider again however little time has passed. |
| ProceduralCache.CurlQueryIsJoin | functions.php:52-54 | The query that `CurlUrl` appends to the endpoint is units, lat, lon, appid and exclude joined by `&`, with the parameters pasted in verbatim. |
| ProceduralCache.CurlQuerySplitsIntoFields | functions.php:52-54 | That query splits back into its five fields if and only if lat, lon and appid contain no `&`. |
| ProceduralCache.CurlWeatherJson | functions.php:65-74 | A truthy curl error wins. The result is then the string "cURL Error #:" followed by the error, and that string is truthy. Otherwise the result is the decoded response. |
| ProceduralCache.JsonQuote | functions.php:97 | `json_encode` of a string is a literal in double quotes, so it is never empty and never "0". |
| ProceduralCache.ExpiryTime | functions.php:88 | A missing or falsy expiry means now − 180. Any other expiry is used as given. |
| ProceduralCache.JsonCachedApiResults | functions.php:85-110 | A missing file halts before any request. The provider is asked exactly when the file time is before the expiry or the file is empty, and the request is `CurlUrl`. A served cache is unchanged and decodes its text. Every call ends in a halt or in `json_decode` of some text: unlike the class, this revision has no branch that returns a string of its own, so a transport error comes back as the decoded error text (see ProceduralCache.TransportErrorIsCached). |
| ProceduralCache.RefreshStoresOrDeletes | functions.php:96-103 | On a refresh the file survives exactly when the fetched value and its encoding are both truthy. It then holds exactly that encoding, timestamped `now`. |
| ProceduralCache.DeletedFileHaltsNextCall | functions.php:90-103 | After a refresh that deleted the file, the next call halts before any request. |
| ProceduralCache.StoredRefreshServedUntilExpiry | functions.php:93-107 | A stored refresh is served, unchanged and without a request, by every call whose expiry time is not after the refresh. |
| ProceduralCache.DefaultLifetimeIsThreeMinutes | functions.php:88-93 | With the default expiry, a stored refresh is fetched again exactly when the clock passes its time + 180. |
| ProceduralCache.TransportErrorIsCached | functions.php:69-101 | A transport error is not deleted. The quoted error text is written to the cache file and decoded, in place of weather data. |
| ProceduralCache.CorrectedJsonCachedApiResults | functions.php:85-110 | The function with the storage test its line 99 comment intends. A missing file halts before any request. The provider is asked exactly when the file time is before the expiry or the file is empty, as in the original. |
| ProceduralCache.CorrectedRefreshDropsTransportErrors | functions.php:99-103 | With the corrected storage test, a transport error deletes the file. Without a transport error, the corrected function equals the function as written. |
| Warning.SevereIffKeywordOccurs | class-peterweathershortcodes.php:118-125 | `IsSevere`, the `str_contains` chain of lines 119-124, holds of an event if and only if one of the six keywords occurs in it at some position. |
| Warning.FirstSevere | class-peterweathershortcodes.php:117-140 | The chosen index is a severe alert and every alert before it is mild. No index means no alert is severe. |
| Warning.LaterAlertsIgnored | class-peterweathershortcodes.php:135-138 | Once a severe alert exists, alerts appended after the list never change the choice. |
| Warning.MildThenSevere | class-peterweathershortcodes.php:117-138 | A mild alert followed by a severe one selects the second, whatever follows. |
| Warning.MarineStatementIsMild | class-peterweathershortcodes.php:118-125 | "Marine Weather Statement" contains none of the keywords. |
| Warning.AdvisoryIsSevere | class-peterweathershortcodes.php:119 | "Small Craft Advisory" is severe. |
| Warning.DescriptionItems | class-peterweathershortcodes.php:127-128 | `FormatDescription`, the two `preg_replace` calls, gives the `*`-separated segments of the newline-free text joined by `</li><li>`. There is one boundary per `*`. No segment contains `*` or a newline, and the segments joined back with `*` give the text. The output has no newline and is 8 characters longer per `*`. |
| Warning.NewlinesToSpacesPointwise | class-peterweathershortcodes.php:127 | Replacing newlines keeps the length, turns each newline into a space, leaves every other character in place, and leaves no newline. |
| Warning.TwoItemExample | class-peterweathershortcodes.php:127-133 | The description "A*B" becomes the two list items "A" and "B". |
| Warning.WeatherWarningFunc | class-peterweathershortcodes.php:101-141 | A missing file or absent alerts give "". The output is non-empty if and only if some alert is severe. It is then `WarningHtml` of the first severe alert: an `<article class="post-entry warning">` holding the escaped event as an `<h2>` heading, then the kses-filtered `FormatDescription` of its description inside `<ul><li>…</li></ul>`. |
| Shortcode.CompleteIffAllGiven | class-peterweathershortcodes.php:34-47 | On the parameters `ShortcodeAtts` reads, the guard of line 45 passes if and only if each of lon, lat, appid and locationname is given a non-empty value. |
| Shortcode.ExtraAttsIgnored | class-peterweathershortcodes.php:34-42 | `ShortcodeAtts`, the `shortcode_atts` call of lines 34-42, ignores every attribute other than the four known keys. |
| Shortcode.AccumulateIsJoin | class-peterweathershortcodes.php:73-89 | The string the loop accumulates is the per-entry markup laid end to end, in `daily` order. |
| Shortcode.AccumulateAppend | class-peterweathershortcodes.php:73-89 | Rendering `a + b` gives the markup of `a` followed by that of `b`: nothing is reordered, dropped or repeated. |
| Shortcode.DayBlockOpens | class-peterweathershortcodes.php:74 | Every forecast block opens with `<div class="day">`. |
| Shortcode.HeaderOpens | class-peterweathershortcodes.php:58 | The current-conditions markup opens the widget container. |
| Shortcode.WidgetLayout | class-peterweathershortcodes.php:58-93 | `Widget`, the markup of lines 58-93, is the current-conditions markup, then one day block per `daily` entry in input order, then the update stamp. |
| Shortcode.WidgetOpens | class-peterweathershortcodes.php:58-95 | The widget opens with its container tag. |
| Shortcode.RenderWidget | class-peterweathershortcodes.php:73-95 | The imperative loop builds exactly the header, the blocks joined in order, and the footer. |
| Shortcode.TaggedIsNotNotice | class-peterweathershortcodes.php:46-52 | Markup opening with the widget tag is neither the guidance text nor the failure notice. |
| Shortcode.PageOf | class-peterweathershortcodes.php:49-95 | After the cache call: a `die` halts; the error string, a thrown error and text that does not decode to a weather object are fatal, and nothing else is; a shown page is the widget of the decoded snapshot. Neither notice is ever shown. |
| Shortcode.WeatherShortcodeFunc | class-peterweathershortcodes.php:32-96 | A shortcode without attributes is fatal, with no request. An attribute array with a missing or empty parameter returns the guidance text, with no request and the cache untouched; that text appears only then. Otherwise the cache call is made as modelled. A missing file halts. A stale file with an answer that has no body is fatal, and so is any text that does not decode to a weather object. Cache text that decodes is always rendered, and the page is then the `Widget` of the decoded snapshot. The failure notice is never shown. |
| Shortcode.CorrectedWeatherShortcodeFunc | class-peterweathershortcodes.php:32-53 | The shortcode as intended never ends in a fatal error. Without attributes it shows the guidance text. A stale file with an answer that has no body, or text that does not decode to a weather object, shows the failure notice. |
| Shortcode.CorrectionOnlyReplacesFatal | class-peterweathershortcodes.php:32-53 | The correction changes exactly the renders that were fatal. Those now show the guidance text when there were no attributes, and the failure notice otherwise. The cache file, the request and every other page are as before. |

## Left out

- peter-weather-shortcodes.php only loads the class and creates it, so it is not part of this model.
- WordPress plumbing is not modelled: `add_action`, `add_shortcode`, the stylesheet hook (class lines 13-27) and `WP_Filesystem`. The cache is a record `CacheFile(present, content, mtime)`. It sits at one fixed path, so the `$cache_file` argument of functions.php is not modelled either.
- HTTP is an input. `wp_remote_get` becomes `FetchResult`. `Ok(body)` is a response array. `WpError` is the `WP_Error` of a transport failure, on which line 242 throws before anything is written. `Err` is a falsy answer, the only one that reaches lines 246-248 as written. curl becomes `Transfer(response, err)`. Timeouts, redirects and the other curl options do not influence any decision modelled here.
- JSON decoding is an input as well. `json_decode` is a function parameter. In functions.php, the decoded response is known only by its truthiness and its re-encoding (`Decoded`).
- The `die` messages are not modelled; a halt is the outcome `Died`.
- ProceduralCache.JsonEscape: escapes quote, backslash, slash, `\n`, `\r` and `\t` only. `json_encode`'s short escapes `\b` and `\f`, and its `\u` escapes for other control characters and for non-ASCII text, are not modelled. The properties proved rely only on the surrounding quotes.
- ProceduralCache.TransportErrorIsCached: assumes the curl error text is valid UTF-8, as every Dafny string is. On invalid UTF-8, `json_encode` returns `false`, and line 103 deletes the file instead.
- `esc_html`, `esc_attr`, `wp_kses_post`, `round`, `wp_date` and `plugin_dir_url` are uninterpreted fields of `Env`.
- A write does not take time: a file written during a call gets `mtime = now`.
- Concurrent renders that write the cache file at the same time are not modelled.
- A decoded object that lacks `current` or a `weather[0]` entry passes null to the `int` parameters of `findIcon` and `degreesToDirectional`, which is fatal. An example is the body of an "invalid API key" answer, which line 244 caches. The model covers this by `decode` returning `None`, which makes the page fatal.
- A decoded object that lacks only `daily` is not modelled. PHP warns at line 73 and renders no day blocks. A decoded snapshot here always has a `daily` sequence.
- `intval` on the condition code in functions.php is not modelled. `Icons.ProceduralFindIcon` takes the integer it produces.
- The `alerts` property is read by a separate decoder parameter in `Warning.WeatherWarningFunc`. The model does not tie it to the snapshot decoder.
- Compass.ProceduralDegreesToDirectional: a PHP float bearing is modelled as its exact `real`. Every fractional edge is a multiple of 0.25, so every comparison is exact. NaN and INF, which JSON cannot carry, are not represented.
- Compass.WholeChainIsSectorArithmetic and Compass.FractionalChainIsSectorArithmetic cover [0, 360) only. Outside that range the chains give "N" without wrapping, as the examples show.

## Findings

| source | as written | input that shows it | evidently intended | confidence | as-written member | corrected member |
|---|---|---|---|---|---|---|
| class-peterweathershortcodes.php:221, 245, 51-53 | `jsonCachedApiResults` is declared to return `object`. On a body that is not a JSON object it returns `json_decode`'s null or array, and on a falsy answer a string. PHP then raises a TypeError, and a decoded object is never falsy. So the `! $weather_json` fallback on line 51 can never run. | Complete parameters and a present cache file older than 300 s. `wp_remote_get` answers with an empty body or an HTML error page. | Show "Something went wrong: we could not fetch the weather data." | high; not executed | Shortcode.WeatherShortcodeFunc | Shortcode.CorrectedWeatherShortcodeFunc |
| functions.php:69-70, 99-103 | `curl_weather_json` turns a transport error into the truthy string "cURL Error #:…". Its `json_encode` is truthy too, so the test on line 100 keeps the file and caches the quoted error text as if it were weather data. | A stale cache file, and curl reports the error "Could not resolve host". | Delete the file on any error, as the comment on line 99 says. | high; not executed | ProceduralCache.TransportErrorIsCached | ProceduralCache.CorrectedJsonCachedApiResults, ProceduralCache.CorrectedRefreshDropsTransportErrors |
| class-peterweathershortcodes.php:32-46 | A shortcode written without attributes reaches the function with the empty string WordPress passes in that case. The `array $atts` declaration rejects it with a TypeError, so the guard on line 45 never runs. | `[weather-shortcode]` with no attributes. | Show the guidance text "Add lat, lon, appid (OpenWeather API key), and locationname to weather shortcode". | high; not executed | Shortcode.WeatherShortcodeFunc | Shortcode.CorrectedWeatherShortcodeFunc |

=== FILE: cache_step.dfy ===
/** `jsonCachedApiResults` of the class file: one call of the cache policy, as a
    transition of the cache file given the clock and what the provider answers.
    A missing file halts; a file older than five minutes, or empty, is refreshed;
    a refresh stores the response body, a falsy answer empties the file so that
    the next call refreshes again, and a `WP_Error` throws before anything is
    written. */
module CacheStep {
  import opened Wrappers
  import opened Strings
  import opened Weather

  /** Seconds a cached response is served before it is refreshed. */
  const Lifetime := 300

  /** What `wp_remote_get` delivers. `Ok(body)` is a response array, which always carries a
      body. `WpError` is the `WP_Error` of a transport failure: it is truthy, and `isset` of an
      offset of an object that is not array-accessible throws, so line 242 ends the request.
      `Err` is a falsy answer, the only one that reaches the wipe of lines 246-248. */
  datatype FetchResult = Ok(body: string) | Err | WpError

  /** The message returned when the refresh has no body. */
  const FetchErrorMessage := "There was an error getting the weather data"

  /** The query string the class file sends, written field by field: it opens with an empty
      field, then the fixed fields, then the three parameters. */
  function RequestQuery(p: Params): string
  {
    "&" + ExcludeField + "&" + UnitsField + "&" + "lat=" + p.lat + "&" + "lon=" + p.lon + "&" + "appid=" + p.appid
  }

  /** The URL the class file requests; the parameters are pasted in unescaped. */
  function RequestUrl(p: Params): string
  {
    Endpoint + "?" + RequestQuery(p)
  }

  /** The fields of the query, in order, when no parameter carries its own separator. */
  function QueryFields(p: Params): seq<string>
  {
    ["", ExcludeField, UnitsField, "lat=" + p.lat, "lon=" + p.lon, "appid=" + p.appid]
  }

  /** The query string splits on `&` into exactly the six intended fields if and only if none
      of lat, lon and appid contains `&`. */
  lemma QuerySplitsIntoFields(p: Params)
    ensures SplitOn(RequestQuery(p), '&') == QueryFields(p) <==> '&' !in p.lat + p.lon + p.appid
  {
    var fs := QueryFields(p);
    QueryIsJoin(p);
    if '&' !in p.lat + p.lon + p.appid {
      assert '&' !in ExcludeField && '&' !in UnitsField;
      assert Free(fs, '&') by {
        forall k | 0 <= k < |fs|
          ensures '&' !in fs[k]
        {
          assert forall ch :: ch in p.lat ==> ch in p.lat + p.lon + p.appid;
          assert forall ch :: ch in p.lon ==> ch in p.lat + p.lon + p.appid;
          assert forall ch :: ch in p.appid ==> ch in p.lat + p.lon + p.appid;
        }
      }
      SplitJoinRoundTrip(fs, '&');
    } else {
      SplitOnShape(RequestQuery(p), '&');
      assert !Free(fs, '&') by {
        if '&' in p.lat {
          assert '&' in fs[3];
        } else if '&' in p.lon {
          assert '&' in fs[4];
        } else {
          assert '&' in fs[5];
        }
      }
    }
  }

  /** The query is its fields joined by `&`. */
  lemma QueryIsJoin(p: Params)
    ensures RequestQuery(p) == Join(QueryFields(p), "&")
  {
    JoinSix("", ExcludeField, UnitsField, "lat=" + p.lat, "lon=" + p.lon, "appid=" + p.appid, "&");
  }

  /** The cache is due for a refresh: written before `now - Lifetime`, or empty. */
  predicate Stale(f: CacheFile, now: int)
  {
    f.mtime < now - Lifetime || f.content == ""
  }

  /** One call of `jsonCachedApiResults` at time `now`; `fetch` is what the provider answers if
      it is asked. */
  function JsonCachedApiResults(f: CacheFile, p: Params, now: int, fetch: FetchResult): (s: Step)
    ensures !f.present ==> s == Step(f, None, Died)
    ensures s.request.Some? <==> f.present && (f.mtime < now - Lifetime || f.content == "")
    ensures s.request.Some? ==> s.request.value == RequestUrl(p)
    ensures s.request.None? ==> s.file == f
    ensures s.file.present == f.present
    ensures s.request.None? && f.present ==> f.content != "" && s.outcome == DecodeOf(f.content)
    ensures s.request.Some? && fetch.Ok? ==> s.file == CacheFile(true, fetch.body, now) && s.outcome == DecodeOf(fetch.body)
    ensures s.request.Some? && fetch.Err? ==> s.file == CacheFile(true, "", now)
                                              && s.outcome == ErrorText(FetchErrorMessage)
    ensures s.request.Some? && fetch.WpError? ==> s.file == f && s.outcome == Thrown
    ensures s.outcome == Thrown <==> s.request.Some? && fetch.WpError?
  {
    if !f.present then Step(f, None, Died)
    else if Stale(f, now) then
      match fetch
      case Ok(body) => Step(CacheFile(true, body, now), Some(RequestUrl(p)), DecodeOf(body))
      case Err => Step(CacheFile(true, "", now), Some(RequestUrl(p)), ErrorText(FetchErrorMessage))
      case WpError => Step(f, Some(RequestUrl(p)), Thrown)
    else Step(f, None, DecodeOf(f.content))
  }

  /** After a falsy answer the next call refreshes again however little time has passed: the
      emptied file is stale at every clock reading. */
  lemma FailedRefreshForcesNextFetch(f: CacheFile, p: Params, now: int, later: int, next: FetchResult)
    requires JsonCachedApiResults(f, p, now, Err).request.Some?
    ensures JsonCachedApiResults(JsonCachedApiResults(f, p, now, Err).file, p, later, next).request.Some?
  {
  }

  /** A transport failure leaves the stale file as it was, so every call from then on asks the
      provider again until one of them gets an answer. */
  lemma TransportFailureKeepsFileStale(f: CacheFile, p: Params, now: int, later: int, next: FetchResult)
    requires JsonCachedApiResults(f, p, now, WpError).request.Some?
    requires now <= later
    ensures JsonCachedApiResults(f, p, now, WpError).file == f
    ensures JsonCachedApiResults(JsonCachedApiResults(f, p, now, WpError).file, p, later, next).request.Some?
  {
  }

  /** After a refresh that stored a non-empty body at `now`, a later call asks the provider
      again exactly when its clock is past `now + Lifetime`; until then it decodes that body
      and leaves the file alone. */
  lemma StoredBodyServedForLifetime(f: CacheFile, p: Params, now: int, body: string, later: int, next: FetchResult)
    requires body != ""
    requires JsonCachedApiResults(f, p, now, Ok(body)).request.Some?
    ensures var g := JsonCachedApiResults(f, p, now, Ok(body)).file;
      var s := JsonCachedApiResults(g, p, later, next);
      && (s.request.Some? <==> later > now + Lifetime)
      && (later <= now + Lifetime ==> s.file == g && s.outcome == DecodeOf(body))
  {
  }

  /** A call that does not refresh changes nothing, so repeating it gives the same result. */
  lemma ServingFromCacheIsIdempotent(f: CacheFile, p: Params, now: int, fetch: FetchResult, again: FetchResult)
    requires JsonCachedApiResults(f, p, now, fetch).request.None?
    ensures JsonCachedApiResults(JsonCachedApiResults(f, p, now, fetch).file, p, now, again)
         == JsonCachedApiResults(f, p, now, fetch)
  {
  }

  /** An empty body is stored, and the empty file it leaves is refreshed by the next call however
      little time has passed, so a provider that answers with empty bodies is asked every time. */
  lemma EmptyBodyForcesNextFetch(f: CacheFile, p: Params, now: int, later: int, next: FetchResult)
    requires JsonCachedApiResults(f, p, now, Ok("")).request.Some?
    ensures JsonCachedApiResults(f, p, now, Ok("")).file == CacheFile(true, "", now)
    ensures JsonCachedApiResults(JsonCachedApiResults(f, p, now, Ok("")).file, p, later, next).request.Some?
  {
  }

  /** One call as the cache sees it: the clock reading and the provider's answer. */
  datatype Call = Call(now: int, fetch: FetchResult)

  /** The number of provider requests a sequence of calls makes. */
  function Fetches(f: CacheFile, p: Params, calls: seq<Call>): nat
    decreases |calls|
  {
    if |calls| == 0 then 0
    else
      var s := JsonCachedApiResults(f, p, calls[0].now, calls[0].fetch);
      (if s.request.Some? then 1 else 0) + Fetches(s.file, p, calls[1..])
  }

  /** Every call is answered with a non-empty body. */
  predicate AllBodies(calls: seq<Call>)
  {
    forall i :: 0 <= i < |calls| ==> calls[i].fetch.Ok? && calls[i].fetch.body != ""
  }

  /** No call comes more than `Lifetime` seconds after an earlier one. */
  predicate WithinLifetime(calls: seq<Call>)
  {
    forall i, j :: 0 <= i < j < |calls| ==> calls[j].now <= calls[i].now + Lifetime
  }

  /** The point of the cache: while the provider answers with non-empty bodies, calls that all
      fall within one lifetime of each other call it at most once. An empty body is stored as
      the empty file, which line 234 treats as stale (`EmptyBodyForcesNextFetch`). */
  lemma {:induction false} AtMostOneFetchPerLifetime(f: CacheFile, p: Params, calls: seq<Call>)
    requires AllBodies(calls)
    requires WithinLifetime(calls)
    ensures Fetches(f, p, calls) <= 1
    decreases |calls|
  {
    if |calls| > 0 {
      var s := JsonCachedApiResults(f, p, calls[0].now, calls[0].fetch);
      var rest := calls[1..];
      assert AllBodies(rest) by {
        forall i | 0 <= i < |rest| ensures rest[i].fetch.Ok? && rest[i].fetch.body != "" {
          assert rest[i] == calls[i + 1];
        }
      }
      assert WithinLifetime(rest) by {
        forall i, j | 0 <= i < j < |rest| ensures rest[j].now <= rest[i].now + Lifetime {
          assert rest[i] == calls[i + 1] && rest[j] == calls[j + 1];
        }
      }
      if s.request.Some? {
        assert forall i :: 0 <= i < |rest| ==> rest[i].now <= calls[0].now + Lifetime by {
          forall i | 0 <= i < |rest| ensures rest[i].now <= calls[0].now + Lifetime {
            assert rest[i] == calls[i + 1];
          }
        }
        NoFetchWhileFresh(s.file, p, rest);
      } else {
        AtMostOneFetchPerLifetime(s.file, p, rest);
      }
    }
  }

  /** A file holding non-empty text and written no more than `Lifetime` seconds before every call is
      served from the cache throughout. */
  lemma {:induction false} NoFetchWhileFresh(f: CacheFile, p: Params, calls: seq<Call>)
    requires f.present && f.content != ""
    requires forall i :: 0 <= i < |calls| ==> calls[i].now <= f.mtime + Lifetime
    ensures Fetches(f, p, calls) == 0
    decreases |calls|
  {
    if |calls| > 0 {
      var rest := calls[1..];
      assert forall i :: 0 <= i < |rest| ==> rest[i].now <= f.mtime + Lifetime by {
        forall i | 0 <= i < |rest| ensures rest[i].now <= f.mtime + Lifetime {
          assert rest[i] == calls[i + 1];
        }
      }
      NoFetchWhileFresh(f, p, rest);
    }
  }
}

=== FILE: compass.dfy ===
/** The wind-bearing classifier, in its two revisions: `degreesToDirectional`
    of the class file, whose bucket edges are whole degrees, and
    `degrees_to_directional` of functions.php, whose edges are the exact
    boundaries of sixteen 22.5-degree sectors centred on north. Both are if-chains
    of strict `<` tests. Both are related here to sector arithmetic, and to each
    other. */
module Compass {
  import opened Wrappers

  /** The sixteen labels in clockwise order starting at north. */
  const Labels: seq<string> :=
    ["N", "NNE", "NE", "ENE", "E", "ESE", "SE", "SSE",
     "S", "SSW", "SW", "WSW", "W", "WNW", "NW", "NNW"]

  /** A PHP value handed to `degrees_to_directional`: a number, or something `is_numeric` rejects. */
  datatype Bearing = Numeric(degrees: real) | NotNumeric

  /** Class file: the whole-degree chain. The parameter is a PHP `int`, so the
      `is_numeric` guard that heads the chain always passes and is omitted. */
  function DegreesToDirectional(deg: int): (dir: string)
    ensures dir in Labels
    ensures deg < 11 || deg >= 349 ==> dir == "N"
  {
    if deg < 11 then "N"
    else if deg < 34 then "NNE"
    else if deg < 56 then "NE"
    else if deg < 79 then "ENE"
    else if deg < 101 then "E"
    else if deg < 124 then "ESE"
    else if deg < 146 then "SE"
    else if deg < 169 then "SSE"
    else if deg < 191 then "S"
    else if deg < 214 then "SSW"
    else if deg < 236 then "SW"
    else if deg < 259 then "WSW"
    else if deg < 281 then "W"
    else if deg < 304 then "WNW"
    else if deg < 326 then "NW"
    else if deg < 349 then "NNW"
    else "N"
  }

  /** functions.php: the fractional chain; a non-numeric argument returns no value. */
  function ProceduralDegreesToDirectional(deg: Bearing): (dir: Option<string>)
    ensures dir.None? <==> deg.NotNumeric?
    ensures dir.Some? ==> dir.value in Labels
    ensures deg.Numeric? && (deg.degrees < 11.25 || deg.degrees >= 348.75) ==> dir == Some("N")
  {
    match deg
    case NotNumeric => None
    case Numeric(d) =>
      Some(
        if d < 11.25 then "N"
        else if d < 33.75 then "NNE"
        else if d < 56.25 then "NE"
        else if d < 78.75 then "ENE"
        else if d < 101.25 then "E"
        else if d < 123.75 then "ESE"
        else if d < 146.25 then "SE"
        else if d < 168.75 then "SSE"
        else if d < 191.25 then "S"
        else if d < 213.75 then "SSW"
        else if d < 236.25 then "SW"
        else if d < 258.75 then "WSW"
        else if d < 281.25 then "W"
        else if d < 303.75 then "WNW"
        else if d < 326.25 then "NW"
        else if d < 348.75 then "NNW"
        else "N")
  }

  /** The label of sector number `k` counted clockwise from north, wrapping after sixteen. */
  function SectorLabel(k: int): string
  {
    Labels[k % |Labels|]
  }

  /** On a full turn the fractional chain is sector arithmetic: sector number
      floor((d + 11.25) / 22.5) mod 16, the sectors being 22.5 degrees wide and centred on
      the sixteen directions. */
  lemma FractionalChainIsSectorArithmetic(d: real)
    requires 0.0 <= d < 360.0
    ensures ProceduralDegreesToDirectional(Numeric(d)) == Some(SectorLabel(((d + 11.25) / 22.5).Floor))
  {
    if d < 78.75 {
      FractionalChainFirstQuarter(d);
    } else if d < 168.75 {
      FractionalChainSecondQuarter(d);
    } else if d < 258.75 {
      FractionalChainThirdQuarter(d);
    } else {
      FractionalChainFourthQuarter(d);
    }
  }

  /** A bearing in the `k`-th sector, counted from the one centred on north, has sector number `k`. */
  lemma SectorFloor(d: real, k: int)
    requires k as real * 22.5 - 11.25 <= d < (k + 1) as real * 22.5 - 11.25
    ensures ((d + 11.25) / 22.5).Floor == k
  {
  }

  /** Sectors 0 to 3 of the fractional chain. */
  lemma FractionalChainFirstQuarter(d: real)
    requires 0.0 <= d < 78.75
    ensures ProceduralDegreesToDirectional(Numeric(d)) == Some(SectorLabel(((d + 11.25) / 22.5).Floor))
  {
    if d < 11.25 { SectorFloor(d, 0); }
    else if d < 33.75 { SectorFloor(d, 1); }
    else if d < 56.25 { SectorFloor(d, 2); }
    else { SectorFloor(d, 3); }
  }

  /** Sectors 4 to 7 of the fractional chain. */
  lemma FractionalChainSecondQuarter(d: real)
    requires 78.75 <= d < 168.75
    ensures ProceduralDegreesToDirectional(Numeric(d)) == Some(SectorLabel(((d + 11.25) / 22.5).Floor))
  {
    if d < 101.25 { SectorFloor(d, 4); }
    else if d < 123.75 { SectorFloor(d, 5); }
    else if d < 146.25 { SectorFloor(d, 6); }
    else { SectorFloor(d, 7); }
  }

  /** Sectors 8 to 11 of the fractional chain. */
  lemma FractionalChainThirdQuarter(d: real)
    requires 168.75 <= d < 258.75
    ensures ProceduralDegreesToDirectional(Numeric(d)) == Some(SectorLabel(((d + 11.25) / 22.5).Floor))
  {
    if d < 191.25 { SectorFloor(d, 8); }
    else if d < 213.75 { SectorFloor(d, 9); }
    else if d < 236.25 { SectorFloor(d, 10); }
    else { SectorFloor(d, 11); }
  }

  /** Sectors 12 to 16 of the fractional chain, the last of which wraps round to north. */
  lemma FractionalChainFourthQuarter(d: real)
    requires 258.75 <= d < 360.0
    ensures ProceduralDegreesToDirectional(Numeric(d)) == Some(SectorLabel(((d + 11.25) / 22.5).Floor))
  {
    if d < 281.25 { SectorFloor(d, 12); }
    else if d < 303.75 { SectorFloor(d, 13); }
    else if d < 326.25 { SectorFloor(d, 14); }
    else if d < 348.75 { SectorFloor(d, 15); }
    else { SectorFloor(d, 16); }
  }

  /** The whole-degree chain is the fractional chain read half a degree further clockwise:
      for an integer, `deg < e` with `e` the whole-degree edge holds exactly when
      `deg + 0.5` is below the matching fractional edge. */
  lemma WholeChainIsShiftedFractional(deg: int)
    ensures ProceduralDegreesToDirectional(Numeric(deg as real + 0.5)) == Some(DegreesToDirectional(deg))
  {
  }

  /** Hence the whole-degree chain is sector arithmetic too, with the sectors shifted by half a
      degree: sector number floor((deg + 11.75) / 22.5) mod 16. */
  lemma WholeChainIsSectorArithmetic(deg: int)
    requires 0 <= deg < 360
    ensures DegreesToDirectional(deg) == SectorLabel(((deg as real + 11.75) / 22.5).Floor)
  {
    WholeChainIsShiftedFractional(deg);
    FractionalChainIsSectorArithmetic(deg as real + 0.5);
    assert deg as real + 0.5 + 11.25 == deg as real + 11.75;
  }

  /** The bearings, in whole degrees, on which the two revisions disagree: exactly the
      eight whole-degree edges that were rounded down from a quarter-degree boundary. */
  const DriftPoints: set<int> := {11, 56, 101, 146, 191, 236, 281, 326}

  /** On whole-degree input the two revisions agree everywhere except on the drift points. */
  lemma RevisionsAgreeOffDrift(deg: int)
    ensures ProceduralDegreesToDirectional(Numeric(deg as real)) == Some(DegreesToDirectional(deg))
            <==> deg !in DriftPoints
  {
  }

  /** The whole-degree edges are strict: the last degree of a sector and the first of the next. */
  lemma WholeEdgeExamples()
    ensures DegreesToDirectional(10) == "N" && DegreesToDirectional(11) == "NNE"
    ensures DegreesToDirectional(100) == "E" && DegreesToDirectional(101) == "ESE"
    ensures DegreesToDirectional(348) == "NNW" && DegreesToDirectional(349) == "N"
    ensures DegreesToDirectional(-1) == "N" && DegreesToDirectional(720) == "N"
  {
  }

  /** The fractional edges fall on the sector boundaries, and a negative bearing is not wrapped. */
  lemma FractionalEdgeExamples()
    ensures ProceduralDegreesToDirectional(Numeric(0.0)) == Some("N")
    ensures ProceduralDegreesToDirectional(Numeric(11.25)) == Some("NNE")
    ensures ProceduralDegreesToDirectional(Numeric(90.0)) == Some("E")
    ensures ProceduralDegreesToDirectional(Numeric(348.74)) == Some("NNW")
    ensures ProceduralDegreesToDirectional(Numeric(348.75)) == Some("N")
    ensures ProceduralDegreesToDirectional(Numeric(-30.0)) == Some("N")
  {
  }
}

=== FILE: icons.dfy ===
/** The condition-code classifier, in its two revisions: `findIcon` of the class
    file and `find_icon` of functions.php. Both test two exact codes first
    (511 freezing rain, 800 clear sky) and then a ladder of strict upper bounds;
    they differ only in the upper bound of the drizzle rung (502 against 522). */
module Icons {

  /** Every icon identifier either ladder can produce. */
  const IconIds: set<string> := {"01", "02", "05", "09", "10", "11", "13", "50"}

  /** Class file: the parameter is a PHP `int`, so the `is_numeric` guard that heads the
      chain always passes and is omitted, and its "01" answer is never given for a code that is
      not numeric. A negative code reaches the `< 299` test and gets "11". */
  function FindIcon(code: int): (icon: string)
    ensures icon in IconIds && icon != "04"
    ensures code == 511 ==> icon == "13"
    ensures code == 800 ==> icon == "01"
  {
    if code == 511 then "13"
    else if code == 800 then "01"
    else if code < 299 then "11"
    else if code < 502 then "09"
    else if code < 599 then "10"
    else if code < 699 then "13"
    else if code < 799 then "50"
    else if code < 803 then "02"
    else "05"
  }

  /** functions.php: the argument has already been through `intval`, so the `is_numeric`
      guard always passes and is omitted; here too a negative code gets "11". */
  function ProceduralFindIcon(code: int): (icon: string)
    ensures icon in IconIds && icon != "04"
    ensures code == 511 ==> icon == "13"
    ensures code == 800 ==> icon == "01"
  {
    if code == 511 then "13"
    else if code == 800 then "01"
    else if code < 299 then "11"
    else if code < 522 then "09"
    else if code < 599 then "10"
    else if code < 699 then "13"
    else if code < 799 then "50"
    else if code < 803 then "02"
    else "05"
  }

  /** One rung of a ladder: codes in `[lo, hi)` get `icon`. */
  datatype Rung = Rung(lo: int, hi: int, icon: string)

  /** The ladder of the class file, as a table of half-open ranges. */
  const ClassLadder: seq<Rung> :=
    [Rung(299, 502, "09"), Rung(502, 599, "10"), Rung(599, 699, "13"),
     Rung(699, 799, "50"), Rung(799, 803, "02")]

  /** The ladder of functions.php. */
  const ProceduralLadder: seq<Rung> :=
    [Rung(299, 522, "09"), Rung(522, 599, "10"), Rung(599, 699, "13"),
     Rung(699, 799, "50"), Rung(799, 803, "02")]

  /** Reference reading of a ladder: the exact codes, then everything below the first rung is a
      thunderstorm, a code in a rung gets that rung's icon, and anything above is overcast. */
  function LadderIcon(ladder: seq<Rung>, code: int): string
    requires |ladder| > 0
  {
    if code == 511 then "13"
    else if code == 800 then "01"
    else if code < ladder[0].lo then "11"
    else RungIcon(ladder, code, 0)
  }

  /** The icon of the first rung from position `i` on that holds `code`, or overcast when none does. */
  function RungIcon(ladder: seq<Rung>, code: int, i: nat): string
    requires i <= |ladder|
    decreases |ladder| - i
  {
    if i == |ladder| then "05"
    else if ladder[i].lo <= code < ladder[i].hi then ladder[i].icon
    else RungIcon(ladder, code, i + 1)
  }

  /** The class chain is its ladder. */
  lemma FindIconIsLadder(code: int)
    ensures FindIcon(code) == LadderIcon(ClassLadder, code)
  {
    var L := ClassLadder;
    assert RungIcon(L, code, 4) == if 799 <= code < 803 then "02" else "05";
    assert RungIcon(L, code, 3) == if 699 <= code < 799 then "50" else RungIcon(L, code, 4);
    assert RungIcon(L, code, 2) == if 599 <= code < 699 then "13" else RungIcon(L, code, 3);
    assert RungIcon(L, code, 1) == if 502 <= code < 599 then "10" else RungIcon(L, code, 2);
  }

  /** The functions.php chain is its ladder. */
  lemma ProceduralFindIconIsLadder(code: int)
    ensures ProceduralFindIcon(code) == LadderIcon(ProceduralLadder, code)
  {
    var L := ProceduralLadder;
    assert RungIcon(L, code, 4) == if 799 <= code < 803 then "02" else "05";
    assert RungIcon(L, code, 3) == if 699 <= code < 799 then "50" else RungIcon(L, code, 4);
    assert RungIcon(L, code, 2) == if 599 <= code < 699 then "13" else RungIcon(L, code, 3);
    assert RungIcon(L, code, 1) == if 522 <= code < 599 then "10" else RungIcon(L, code, 2);
  }

  /** The two revisions disagree on exactly the codes 502 to 521 other than 511, which the class
      file calls rain ("10") and functions.php calls drizzle ("09"). */
  lemma RevisionsDisagreeOnDrizzleBand(code: int)
    ensures FindIcon(code) != ProceduralFindIcon(code) <==> 502 <= code < 522 && code != 511
    ensures 502 <= code < 522 && code != 511 ==> FindIcon(code) == "10" && ProceduralFindIcon(code) == "09"
  {
  }

  /** Boundary codes of the class ladder, negatives included. */
  lemma FindIconExamples()
    ensures FindIcon(-1) == "11" && FindIcon(200) == "11" && FindIcon(298) == "11"
    ensures FindIcon(299) == "09" && FindIcon(501) == "09" && FindIcon(502) == "10"
    ensures FindIcon(511) == "13" && FindIcon(598) == "10" && FindIcon(599) == "13"
    ensures FindIcon(699) == "50" && FindIcon(799) == "02" && FindIcon(800) == "01"
    ensures FindIcon(802) == "02" && FindIcon(803) == "05" && FindIcon(900) == "05"
  {
  }

  /** Boundary codes of the functions.php ladder: the drizzle rung runs on to 521. */
  lemma ProceduralFindIconExamples()
    ensures ProceduralFindIcon(-1) == "11" && ProceduralFindIcon(298) == "11" && ProceduralFindIcon(299) == "09"
    ensures ProceduralFindIcon(502) == "09" && ProceduralFindIcon(511) == "13" && ProceduralFindIcon(521) == "09"
    ensures ProceduralFindIcon(522) == "10" && ProceduralFindIcon(598) == "10" && ProceduralFindIcon(599) == "13"
    ensures ProceduralFindIcon(699) == "50" && ProceduralFindIcon(799) == "02" && ProceduralFindIcon(800) == "01"
    ensures ProceduralFindIcon(802) == "02" && ProceduralFindIcon(803) == "05"
  {
  }
}

=== FILE: procedural_cache.dfy ===
/** `curl_weather_json` and `json_cached_api_results` of functions.php: the
    older, procedural cache policy. A missing file halts; a file changed before
    the expiry time (three minutes ago by default), or empty, is refreshed; the
    refresh stores the re-encoded response when both the response and its
    encoding are truthy, and otherwise deletes the file, so that the next call
    halts. */
module ProceduralCache {
  import opened Wrappers
  import opened Strings
  import opened Weather

  /** Seconds a cached response is served when no expiry time is passed in. */
  const DefaultLifetime := 180

  /** The query string functions.php sends, written field by field. */
  function CurlQuery(p: Params): string
  {
    UnitsField + "&" + "lat=" + p.lat + "&" + "lon=" + p.lon + "&" + "appid=" + p.appid + "&" + ExcludeField
  }

  /** The URL `curl_weather_json` requests; the parameters are pasted in unescaped. */
  function CurlUrl(p: Params): string
  {
    Endpoint + "?" + CurlQuery(p)
  }

  /** The fields of the query, in order, when no parameter carries its own separator. */
  function CurlFields(p: Params): seq<string>
  {
    [UnitsField, "lat=" + p.lat, "lon=" + p.lon, "appid=" + p.appid, ExcludeField]
  }

  /** The query is its fields joined by `&`. */
  lemma CurlQueryIsJoin(p: Params)
    ensures CurlQuery(p) == Join(CurlFields(p), "&")
  {
    JoinFive(UnitsField, "lat=" + p.lat, "lon=" + p.lon, "appid=" + p.appid, ExcludeField, "&");
  }

  /** The query string splits on `&` into exactly the five intended fields if and only if none
      of lat, lon and appid contains `&`. */
  lemma CurlQuerySplitsIntoFields(p: Params)
    ensures SplitOn(CurlQuery(p), '&') == CurlFields(p) <==> '&' !in p.lat + p.lon + p.appid
  {
    var fs := CurlFields(p);
    CurlQueryIsJoin(p);
    if '&' !in p.lat + p.lon + p.appid {
      assert '&' !in ExcludeField && '&' !in UnitsField;
      assert Free(fs, '&') by {
        forall k | 0 <= k < |fs|
          ensures '&' !in fs[k]
        {
          assert forall ch :: ch in p.lat ==> ch in p.lat + p.lon + p.appid;
          assert forall ch :: ch in p.lon ==> ch in p.lat + p.lon + p.appid;
          assert forall ch :: ch in p.appid ==> ch in p.lat + p.lon + p.appid;
        }
      }
      SplitJoinRoundTrip(fs, '&');
    } else {
      SplitOnShape(CurlQuery(p), '&');
      assert !Free(fs, '&') by {
        if '&' in p.lat {
          assert '&' in fs[1];
        } else if '&' in p.lon {
          assert '&' in fs[2];
        } else {
          assert '&' in fs[3];
        }
      }
    }
  }

  /** PHP truthiness of a string: everything but "" and "0". */
  predicate TruthyString(s: string)
  {
    s != "" && s != "0"
  }

  /** The value `json_decode` made of a response body, known only by its truthiness and by what
      `json_encode` makes of it again (`None` for `false`). */
  datatype Decoded = Decoded(truthy: bool, encoding: Option<string>)

  /** What curl delivers: the response as decoded, and the `curl_error` text ("" when none). */
  datatype Transfer = Transfer(response: Decoded, err: string)

  /** What `curl_weather_json` returns: the error text, or the decoded response. */
  datatype Fetched = ErrorMessage(text: string) | Json(value: Decoded)

  /** The prefix `curl_weather_json` puts before a transport error. */
  const CurlErrorPrefix := "cURL Error #:"

  /** `curl_weather_json`: a truthy error text wins over the response. */
  function CurlWeatherJson(t: Transfer): (v: Fetched)
    ensures v.ErrorMessage? <==> TruthyString(t.err)
    ensures v.ErrorMessage? ==> v.text == CurlErrorPrefix + t.err && TruthyString(v.text)
    ensures v.Json? ==> v.value == t.response
  {
    if TruthyString(t.err) then ErrorMessage(CurlErrorPrefix + t.err) else Json(t.response)
  }

  /** PHP truthiness of what `curl_weather_json` returned. */
  predicate Truthy(v: Fetched)
  {
    match v
    case ErrorMessage(text) => TruthyString(text)
    case Json(d) => d.truthy
  }

  /** The body of a JSON string literal for `s`: quote, backslash, slash and the common control
      characters escaped, everything else kept. */
  function JsonEscape(s: string): string
  {
    if |s| == 0 then ""
    else
      (match s[0]
       case '"' => "\\\""
       case '\\' => "\\\\"
       case '/' => "\\/"
       case '\n' => "\\n"
       case '\r' => "\\r"
       case '\t' => "\\t"
       case _ => [s[0]])
      + JsonEscape(s[1..])
  }

  /** `json_encode` of a PHP string: a quoted, escaped literal. */
  function JsonQuote(s: string): (q: string)
    ensures |q| >= 2 && q[0] == '"' && q[|q| - 1] == '"'
  {
    "\"" + JsonEscape(s) + "\""
  }

  /** `json_encode` of what `curl_weather_json` returned. */
  function JsonEncode(v: Fetched): Option<string>
  {
    match v
    case ErrorMessage(text) => Some(JsonQuote(text))
    case Json(d) => d.encoding
  }

  /** The test of line 100: the fetched value and its encoding are both truthy. */
  predicate Storable(v: Fetched)
  {
    Truthy(v) && JsonEncode(v).Some? && TruthyString(JsonEncode(v).value)
  }

  /** The expiry time: the one passed in, unless it is absent or zero (falsy), in which case
      `DefaultLifetime` seconds before `now`. */
  function ExpiryTime(now: int, expires: Option<int>): (e: int)
    ensures expires.None? || expires.value == 0 ==> e == now - DefaultLifetime
    ensures expires.Some? && expires.value != 0 ==> e == expires.value
  {
    if expires.None? || expires.value == 0 then now - DefaultLifetime else expires.value
  }

  /** One call of `json_cached_api_results` at time `now`; `transfer` is what curl delivers if
      the provider is asked. */
  function JsonCachedApiResults(f: CacheFile, p: Params, now: int, expires: Option<int>, transfer: Transfer): (s: Step)
    ensures !f.present ==> s == Step(f, None, Died)
    ensures s.request.Some? <==> f.present && (f.mtime < ExpiryTime(now, expires) || f.content == "")
    ensures s.request.Some? ==> s.request.value == CurlUrl(p)
    ensures s.request.None? ==> s.file == f
    ensures s.request.None? && f.present ==> s.outcome == DecodeOf(f.content)
    ensures s.outcome.Died? || s.outcome.DecodeOf?
  {
    if !f.present then Step(f, None, Died)
    else if f.mtime < ExpiryTime(now, expires) || f.content == "" then
      var v := CurlWeatherJson(transfer);
      var encoded := JsonEncode(v);
      if Storable(v) then Step(CacheFile(true, encoded.value, now), Some(CurlUrl(p)), DecodeOf(encoded.value))
      else Step(f.(present := false), Some(CurlUrl(p)), DecodeOf(encoded.GetOr("")))
    else Step(f, None, DecodeOf(f.content))
  }

  /** A refresh either stores exactly the re-encoded response, fresh as of `now`, or deletes the
      file; which one is decided by the truthiness test alone. */
  lemma RefreshStoresOrDeletes(f: CacheFile, p: Params, now: int, expires: Option<int>, t: Transfer)
    requires JsonCachedApiResults(f, p, now, expires, t).request.Some?
    ensures var s := JsonCachedApiResults(f, p, now, expires, t);
      var v := CurlWeatherJson(t);
      && (s.file.present <==> Storable(v))
      && (s.file.present ==> s.file.content == JsonEncode(v).value && s.file.mtime == now)
  {
  }

  /** After a refresh that deleted the file, every later call halts before asking the provider. */
  lemma DeletedFileHaltsNextCall(f: CacheFile, p: Params, now: int, expires: Option<int>, t: Transfer,
                                 later: int, expires2: Option<int>, t2: Transfer)
    requires !JsonCachedApiResults(f, p, now, expires, t).file.present
    ensures var g := JsonCachedApiResults(f, p, now, expires, t).file;
      JsonCachedApiResults(g, p, later, expires2, t2) == Step(g, None, Died)
  {
  }

  /** A stored refresh is served, without asking the provider, by every call whose expiry time
      is not after the refresh. */
  lemma StoredRefreshServedUntilExpiry(f: CacheFile, p: Params, now: int, expires: Option<int>, t: Transfer,
                                       later: int, expires2: Option<int>, t2: Transfer)
    requires JsonCachedApiResults(f, p, now, expires, t).request.Some?
    requires JsonCachedApiResults(f, p, now, expires, t).file.present
    requires ExpiryTime(later, expires2) <= now
    ensures var g := JsonCachedApiResults(f, p, now, expires, t).file;
      var s := JsonCachedApiResults(g, p, later, expires2, t2);
      s.request.None? && s.file == g && s.outcome == DecodeOf(g.content)
  {
  }

  /** The default expiry makes the lifetime three minutes: with no expiry passed in, a stored
      refresh is served until `now + DefaultLifetime` and refreshed after. */
  lemma DefaultLifetimeIsThreeMinutes(f: CacheFile, p: Params, now: int, expires: Option<int>, t: Transfer,
                                      later: int, t2: Transfer)
    requires JsonCachedApiResults(f, p, now, expires, t).request.Some?
    requires JsonCachedApiResults(f, p, now, expires, t).file.present
    ensures var g := JsonCachedApiResults(f, p, now, expires, t).file;
      JsonCachedApiResults(g, p, later, None, t2).request.Some? <==> later > now + DefaultLifetime
  {
    RefreshStoresOrDeletes(f, p, now, expires, t);
  }

  /** A transport error does not delete the file: the error text is truthy and so is its JSON
      encoding, so the text itself is cached, as a JSON string, in place of weather data. */
  lemma TransportErrorIsCached(f: CacheFile, p: Params, now: int, expires: Option<int>, t: Transfer)
    requires TruthyString(t.err)
    requires JsonCachedApiResults(f, p, now, expires, t).request.Some?
    ensures var s := JsonCachedApiResults(f, p, now, expires, t);
      s.file == CacheFile(true, JsonQuote(CurlErrorPrefix + t.err), now)
      && s.outcome == DecodeOf(JsonQuote(CurlErrorPrefix + t.err))
  {
    var q := JsonQuote(CurlErrorPrefix + t.err);
    assert q != "0" by {
      assert q[0] == '"';
    }
  }

  /** The refresh test as the comment above it intends: only a decoded response is stored, and
      a transport error deletes the file like any other failure. */
  predicate StorableCorrected(v: Fetched)
  {
    v.Json? && Storable(v)
  }

  /** `json_cached_api_results` with the corrected refresh test. */
  function CorrectedJsonCachedApiResults(f: CacheFile, p: Params, now: int, expires: Option<int>, t: Transfer): (s: Step)
    ensures !f.present ==> s == Step(f, None, Died)
    ensures s.request.Some? <==> f.present && (f.mtime < ExpiryTime(now, expires) || f.content == "")
  {
    if !f.present then Step(f, None, Died)
    else if f.mtime < ExpiryTime(now, expires) || f.content == "" then
      var v := CurlWeatherJson(t);
      var encoded := JsonEncode(v);
      if StorableCorrected(v) then Step(CacheFile(true, encoded.value, now), Some(CurlUrl(p)), DecodeOf(encoded.value))
      else Step(f.(present := false), Some(CurlUrl(p)), DecodeOf(encoded.GetOr("")))
    else Step(f, None, DecodeOf(f.content))
  }

  /** With the corrected test a transport error never reaches the cache, and without a
      transport error the corrected function behaves exactly as written. */
  lemma CorrectedRefreshDropsTransportErrors(f: CacheFile, p: Params, now: int, expires: Option<int>, t: Transfer)
    ensures TruthyString(t.err) && CorrectedJsonCachedApiResults(f, p, now, expires, t).request.Some?
            ==> !CorrectedJsonCachedApiResults(f, p, now, expires, t).file.present
    ensures !TruthyString(t.err)
            ==> CorrectedJsonCachedApiResults(f, p, now, expires, t) == JsonCachedApiResults(f, p, now, expires, t)
  {
  }
}

=== FILE: shortcode.dfy ===
/** `weatherShortcodeFunc` of the class file: the parameter guard, one call of the
    cache policy, and the widget (current conditions, one block per daily forecast
    in the provider's order, then the update stamp). */
module Shortcode {
  import opened Wrappers
  import opened Strings
  import opened Weather
  import Compass
  import Icons
  import CacheStep

  /** Returned when an attribute is missing or empty; no file access happens. This literal and
      the next are written in two parts only to keep the verifier's work on them small. */
  const Guidance := "Add lat, lon, appid (OpenWeather API key), " + "and locationname to weather shortcode"

  /** The notice the shortcode means to show when no weather data came back. */
  const FailureNotice := "Something went wrong: " + "we could not fetch the weather data."

  /** `shortcode_atts` with every default `''`: the four known keys are read, all others dropped. */
  function ShortcodeAtts(atts: map<string, string>): Params
  {
    Params(
      if "lon" in atts then atts["lon"] else "",
      if "lat" in atts then atts["lat"] else "",
      if "appid" in atts then atts["appid"] else "",
      if "locationname" in atts then atts["locationname"] else "")
  }

  /** The negation of `in_array('', $params, true)`: no attribute is the empty string. */
  predicate Complete(p: Params)
  {
    p.lon != "" && p.lat != "" && p.appid != "" && p.locationname != ""
  }

  /** Attributes other than the four known keys never influence the parameters. */
  lemma ExtraAttsIgnored(atts: map<string, string>, k: string, v: string)
    requires k != "lon" && k != "lat" && k != "appid" && k != "locationname"
    ensures ShortcodeAtts(atts[k := v]) == ShortcodeAtts(atts)
  {
  }

  /** The parameters are complete exactly when each of the four keys is given a non-empty value. */
  lemma CompleteIffAllGiven(atts: map<string, string>)
    ensures Complete(ShortcodeAtts(atts)) <==>
      forall k :: k in ["lon", "lat", "appid", "locationname"] ==> k in atts && atts[k] != ""
  {
    var keys := ["lon", "lat", "appid", "locationname"];
    if Complete(ShortcodeAtts(atts)) {
      forall k | k in keys
        ensures k in atts && atts[k] != ""
      {
        assert k == keys[0] || k == keys[1] || k == keys[2] || k == keys[3];
      }
    } else {
      assert keys[0] == "lon" && keys[1] == "lat" && keys[2] == "appid" && keys[3] == "locationname";
    }
  }

  /** What the page shows: the returned markup, nothing (the request died), or a PHP fatal error. */
  datatype Page = Html(text: string) | Halted | Fatal

  /** One shortcode render: the cache file afterwards, the URL requested if any, and the page. */
  datatype Render = Render(file: CacheFile, request: Option<string>, page: Page)

  /** The opening tag of the widget and of one forecast block. */
  const WidgetOpen := "<div class=\"peter-weather-widget\">"
  const DayOpen := "<div class=\"day\">"

  /** The fixed markup between the values of the widget, in the order it is emitted. */
  const TitleOpen := "<h3 class=\"weather-title\">Current weather at "
  const TitleToIcon := "</h3><p class=\"weather-period\">updated every 5 minutes</p><img src=\""
  const IconsDir := "icons/"
  const CurrentIconToTemp := ".png\" class=\"weather-icon current\" /><div><div class=\"flex-table\"><span class=\"flex-row header\">TEMP</span><span class=\"flex-row day\">"
  const TempToWeather := "&deg;F</span></div><div class=\"flex-table\"><span class=\"flex-row header\">WEATHER</span><span class=\"flex-row day\">"
  const WeatherToWind := "</span></div><div class=\"flex-table\"><span class=\"flex-row header\">WIND</span><span class=\"flex-row day\">"
  const CurrentSpeedUnit := " MPH, "
  const CurrentClose := "</span></div></div><hr>"
  const ImgOpen := "<img src=\""
  const DayIconToAlt := ".png\" class=\"weather-icon\" alt=\""
  const AltToHeading := "\" /><h5 class=\"day-heading\">"
  const HeadingToTemp := " forecast</h5><div class=\"flex-table\"><span class=\"flex-row header\">TEMP</span><span class=\"flex-row day\">"
  const DayTempToWeather := "&deg;F</span></div><div class=\"flex-table\"><span class=\"flex-row header\">WEATHER</span><span class=\"flex-row day\">"
  const DayWeatherToWind := "</span></div><div class=\"flex-table\"><span class=\"flex-row header\">WIND</span><span class=\"flex-row day\">"
  const DaySpeedUnit := "MPH, "
  const DayClose := "</span></div><hr></div>"
  const StampOpen := "<p class=\"weather-update\">updated "
  const WidgetClose := "</p></div>"

  /** Current conditions, piece by piece in emission order: title, icon, temperature,
      description and wind. The location name is pasted in unescaped. */
  function HeaderPieces(c: Current, p: Params, env: Env): seq<string>
  {
    [WidgetOpen, TitleOpen, p.locationname, TitleToIcon, env.pluginUrl, IconsDir,
     env.escAttr(Icons.FindIcon(c.condition.id)), CurrentIconToTemp,
     env.escHtml(env.rounded(c.temp)), TempToWeather,
     env.escHtml(c.condition.description), WeatherToWind,
     env.escHtml(env.rounded(c.windSpeed)), CurrentSpeedUnit,
     env.escHtml(Compass.DegreesToDirectional(c.windDeg)), CurrentClose]
  }

  /** One forecast block, piece by piece in emission order. The `alt` text and the weekday are
      pasted in unescaped. */
  function DayPieces(d: Day, env: Env): seq<string>
  {
    [DayOpen, ImgOpen, env.pluginUrl, IconsDir,
     env.escAttr(Icons.FindIcon(d.condition.id)), DayIconToAlt,
     d.condition.description, AltToHeading,
     env.weekday(d.dt), HeadingToTemp,
     env.escHtml(env.rounded(d.dayTemp)), DayTempToWeather,
     env.escHtml(d.condition.description), DayWeatherToWind,
     env.escHtml(env.rounded(d.windSpeed)), DaySpeedUnit,
     env.escHtml(Compass.DegreesToDirectional(d.windDeg)), DayClose]
  }

  /** The current-conditions markup. */
  function Header(c: Current, p: Params, env: Env): string
  {
    Join(HeaderPieces(c, p, env), "")
  }

  /** The markup of one forecast. */
  function DayBlock(d: Day, env: Env): string
  {
    Join(DayPieces(d, env), "")
  }

  /** The update stamp and the widget's closing tag. */
  function Footer(c: Current, env: Env): string
  {
    StampOpen + env.escHtml(env.stamp(c.dt)) + WidgetClose
  }

  /** The markup of one forecast, as a function of the forecast alone. */
  function BlockOf(env: Env): Day -> string
  {
    d => DayBlock(d, env)
  }

  /** The `foreach` over `daily`, as the string it accumulates: each entry's markup appended
      after that of the entries before it. */
  function Accumulate(days: seq<Day>, block: Day -> string): string
    decreases |days|
  {
    if |days| == 0 then "" else Accumulate(days[..|days| - 1], block) + block(days[|days| - 1])
  }

  /** The markup of each entry, position for position. */
  function MapBlocks(days: seq<Day>, block: Day -> string): (bs: seq<string>)
    ensures |bs| == |days|
  {
    seq(|days|, i requires 0 <= i < |days| => block(days[i]))
  }

  /** The accumulated loop output is the entries' markup laid end to end, in `daily` order. */
  lemma {:induction false} AccumulateIsJoin(days: seq<Day>, block: Day -> string)
    ensures Accumulate(days, block) == Join(MapBlocks(days, block), "")
    decreases |days|
  {
    if |days| > 0 {
      var init := days[..|days| - 1];
      AccumulateIsJoin(init, block);
      assert MapBlocks(days, block) == MapBlocks(init, block) + [block(days[|days| - 1])];
      JoinSnoc(MapBlocks(init, block), block(days[|days| - 1]), "");
    }
  }

  /** Forecasts rendered one after the other give the markup of the first followed by that of
      the second: no block is reordered, dropped or repeated. */
  lemma {:induction false} AccumulateAppend(a: seq<Day>, b: seq<Day>, block: Day -> string)
    ensures Accumulate(a + b, block) == Accumulate(a, block) + Accumulate(b, block)
    decreases |b|
  {
    if |b| > 0 {
      var init := b[..|b| - 1];
      assert (a + b)[..|a + b| - 1] == a + init;
      assert (a + b)[|a + b| - 1] == b[|b| - 1];
      AccumulateAppend(a, init, block);
    } else {
      assert a + b == a;
    }
  }

  /** The whole widget: current conditions, the forecasts, the update stamp. */
  function Widget(s: Snapshot, p: Params, env: Env): string
  {
    Header(s.current, p, env) + Accumulate(s.daily, BlockOf(env)) + Footer(s.current, env)
  }

  /** The current-conditions markup opens the widget's container. */
  lemma HeaderOpens(c: Current, p: Params, env: Env)
    ensures IsPrefix(WidgetOpen, Header(c, p, env))
  {
    var ps := HeaderPieces(c, p, env);
    assert Join(ps, "") == WidgetOpen + "" + Join(ps[1..], "");
  }

  /** Every forecast block opens with the day container. */
  lemma DayBlockOpens(d: Day, env: Env)
    ensures IsPrefix(DayOpen, DayBlock(d, env))
  {
    var ps := DayPieces(d, env);
    assert Join(ps, "") == DayOpen + "" + Join(ps[1..], "");
  }

  /** The widget is the current-conditions markup, then exactly one block per daily forecast in
      order, then the footer; every block opens with the day container. */
  lemma WidgetLayout(s: Snapshot, p: Params, env: Env)
    ensures var bs := MapBlocks(s.daily, BlockOf(env));
      && Widget(s, p, env) == Header(s.current, p, env) + Join(bs, "") + Footer(s.current, env)
      && |bs| == |s.daily|
      && (forall i :: 0 <= i < |bs| ==> bs[i] == DayBlock(s.daily[i], env) && IsPrefix(DayOpen, bs[i]))
  {
    var bs := MapBlocks(s.daily, BlockOf(env));
    AccumulateIsJoin(s.daily, BlockOf(env));
    forall i | 0 <= i < |bs|
      ensures bs[i] == DayBlock(s.daily[i], env) && IsPrefix(DayOpen, bs[i])
    {
      DayBlockOpens(s.daily[i], env);
    }
  }

  /** The widget opens with its container. */
  lemma WidgetOpens(s: Snapshot, p: Params, env: Env)
    ensures IsPrefix(WidgetOpen, Widget(s, p, env))
  {
    var h := Header(s.current, p, env);
    var a := Accumulate(s.daily, BlockOf(env));
    HeaderOpens(s.current, p, env);
    PrefixExtends(WidgetOpen, h, a);
    PrefixExtends(WidgetOpen, h + a, Footer(s.current, env));
  }

  /** A prefix of a string is a prefix of every extension of it. */
  lemma PrefixExtends(pre: string, s: string, rest: string)
    requires IsPrefix(pre, s)
    ensures IsPrefix(pre, s + rest)
  {
    assert (s + rest)[..|pre|] == s[..|pre|];
  }

  /** The loop of the source: `header`, then each entry's markup appended in turn, then `footer`. */
  method RenderWidget(header: string, days: seq<Day>, block: Day -> string, footer: string) returns (html: string)
    ensures html == header + Join(MapBlocks(days, block), "") + footer
  {
    html := header;
    var i := 0;
    while i < |days|
      invariant 0 <= i <= |days|
      invariant html == header + Join(MapBlocks(days[..i], block), "")
    {
      var b := block(days[i]);
      assert MapBlocks(days[..i + 1], block) == MapBlocks(days[..i], block) + [b];
      JoinSnoc(MapBlocks(days[..i], block), b, "");
      html := html + b;
      i := i + 1;
    }
    assert days[..i] == days;
    html := html + footer;
  }

  /** Markup that opens with the widget's container is neither the guidance nor the failure notice. */
  lemma TaggedIsNotNotice(w: string)
    requires IsPrefix(WidgetOpen, w)
    ensures w != Guidance && w != FailureNotice
  {
    assert w[0] == WidgetOpen[0] == '<';
    assert Guidance[0] == 'A' && FailureNotice[0] == 'S';
  }

  /** The guard of line 45 is reached and passes: WordPress handed over an attribute array, and
      none of the four parameters is empty. */
  predicate Guarded(atts: Option<map<string, string>>)
  {
    atts.Some? && Complete(ShortcodeAtts(atts.value))
  }

  /** The page after the cache call. `jsonCachedApiResults` is declared to return an object, so
      its error string, the `null` or array `json_decode` makes of text that is not a JSON
      object, and an error thrown inside it all end in a fatal error before the
      `! $weather_json` test of line 51 can run; a decoded object becomes the widget. `decode` is
      `json_decode`, `None` for anything but an object the widget can be built from. */
  function PageOf(s: Step, p: Params, decode: string -> Option<Snapshot>, env: Env): (page: Page)
    ensures page == Halted <==> s.outcome.Died?
    ensures page == Fatal <==> s.outcome.ErrorText? || s.outcome.Thrown?
                               || (s.outcome.DecodeOf? && decode(s.outcome.text).None?)
    ensures page.Html? ==> s.outcome.DecodeOf?
                           && exists snap :: decode(s.outcome.text) == Some(snap) && page.text == Widget(snap, p, env)
    ensures page != Html(Guidance) && page != Html(FailureNotice)
  {
    match s.outcome
    case Died => Halted
    case ErrorText(_) => Fatal
    case Thrown => Fatal
    case DecodeOf(text) =>
      match decode(text)
      case None => Fatal
      case Some(snap) =>
        WidgetOpens(snap, p, env);
        TaggedIsNotNotice(Widget(snap, p, env));
        Html(Widget(snap, p, env))
  }

  /** `weatherShortcodeFunc` with the cache file, the clock and the provider's answer as inputs.
      `atts` is `None` for a shortcode written without attributes: WordPress then passes the
      empty string, which the `array` declaration of line 32 rejects with a fatal error. */
  function WeatherShortcodeFunc(atts: Option<map<string, string>>, f: CacheFile, now: int,
                                fetch: CacheStep.FetchResult, decode: string -> Option<Snapshot>, env: Env): (r: Render)
    ensures atts.None? ==> r == Render(f, None, Fatal)
    ensures atts.Some? && !Complete(ShortcodeAtts(atts.value)) ==> r == Render(f, None, Html(Guidance))
    ensures r.page == Html(Guidance) <==> atts.Some? && !Complete(ShortcodeAtts(atts.value))
    ensures Guarded(atts) ==>
      var s := CacheStep.JsonCachedApiResults(f, ShortcodeAtts(atts.value), now, fetch);
      && r.file == s.file && r.request == s.request
      && (s.outcome.DecodeOf? && decode(s.outcome.text).None? ==> r.page == Fatal)
      && (r.page.Html? <==> s.outcome.DecodeOf? && decode(s.outcome.text).Some?)
      && (r.page.Html? ==> r.page.text == Widget(decode(s.outcome.text).value, ShortcodeAtts(atts.value), env))
    ensures Guarded(atts) && !f.present ==> r.page == Halted
    ensures Guarded(atts) && f.present && CacheStep.Stale(f, now) && !fetch.Ok? ==> r.page == Fatal
    ensures r.page != Html(FailureNotice)
  {
    if atts.None? then Render(f, None, Fatal)
    else
      var p := ShortcodeAtts(atts.value);
      if !Complete(p) then Render(f, None, Html(Guidance))
      else
        var s := CacheStep.JsonCachedApiResults(f, p, now, fetch);
        Render(s.file, s.request, PageOf(s, p, decode, env))
  }

  /** The shortcode as evidently intended: a shortcode without attributes gets the guidance like
      one with missing attributes, and a cache call that yields no weather object shows the
      failure notice instead of ending in a fatal error. */
  function CorrectedWeatherShortcodeFunc(atts: Option<map<string, string>>, f: CacheFile, now: int,
                                         fetch: CacheStep.FetchResult, decode: string -> Option<Snapshot>, env: Env): (r: Render)
    ensures r.page != Fatal
    ensures atts.None? ==> r == Render(f, None, Html(Guidance))
    ensures Guarded(atts) && f.present && CacheStep.Stale(f, now) && !fetch.Ok? ==> r.page == Html(FailureNotice)
    ensures Guarded(atts) && CacheStep.JsonCachedApiResults(f, ShortcodeAtts(atts.value), now, fetch).outcome.DecodeOf?
            && decode(CacheStep.JsonCachedApiResults(f, ShortcodeAtts(atts.value), now, fetch).outcome.text).None?
            ==> r.page == Html(FailureNotice)
  {
    var p := ShortcodeAtts(atts.GetOr(map[]));
    if !Complete(p) then Render(f, None, Html(Guidance))
    else
      var s := CacheStep.JsonCachedApiResults(f, p, now, fetch);
      match s.outcome
      case Died => Render(s.file, s.request, Halted)
      case ErrorText(_) => Render(s.file, s.request, Html(FailureNotice))
      case Thrown => Render(s.file, s.request, Html(FailureNotice))
      case DecodeOf(text) =>
        match decode(text)
        case None => Render(s.file, s.request, Html(FailureNotice))
        case Some(snap) => Render(s.file, s.request, Html(Widget(snap, p, env)))
  }

  /** The correction changes exactly the renders that end in a fatal error: without attributes the
      guidance is shown, otherwise the failure notice; the cache file, the request and every other
      page are as before. */
  lemma CorrectionOnlyReplacesFatal(atts: Option<map<string, string>>, f: CacheFile, now: int,
                                    fetch: CacheStep.FetchResult, decode: string -> Option<Snapshot>, env: Env)
    ensures var r := WeatherShortcodeFunc(atts, f, now, fetch, decode, env);
      var c := CorrectedWeatherShortcodeFunc(atts, f, now, fetch, decode, env);
      && c.file == r.file && c.request == r.request
      && c.page == (if r.page != Fatal then r.page
                    else if atts.None? then Html(Guidance)
                    else Html(FailureNotice))
  {
  }
}

=== FILE: strings.dfy ===
/** Character-level string operations the plugin relies on: substring search
    (PHP's `str_contains`), single-character replacement (a `preg_replace` whose
    pattern is one character) and splitting/joining on a separator, together
    with the lemmas that tie them to each other. */
module Strings {

  /** True iff `pre` is a prefix of `s`. */
  predicate IsPrefix(pre: string, s: string)
  {
    |pre| <= |s| && s[..|pre|] == pre
  }

  /** Case-sensitive substring test, scanning `s` from the left. */
  predicate Contains(s: string, sub: string)
    decreases |s|
  {
    IsPrefix(sub, s) || (|s| > 0 && Contains(s[1..], sub))
  }

  /** `sub` occurs in `s` starting at position `i`. */
  ghost predicate OccursAt(s: string, sub: string, i: int)
  {
    0 <= i && i + |sub| <= |s| && s[i..i + |sub|] == sub
  }

  /** The scan agrees with the positional definition of an occurrence, in both directions. */
  lemma ContainsIffOccurs(s: string, sub: string)
    ensures Contains(s, sub) <==> exists i :: OccursAt(s, sub, i)
  {
    if Contains(s, sub) {
      var i := ContainsWitness(s, sub);
      assert OccursAt(s, sub, i);
    }
    forall i | OccursAt(s, sub, i)
      ensures Contains(s, sub)
    {
      OccursImpliesContains(s, sub, i);
    }
  }

  /** A position at which a found substring occurs. */
  lemma {:induction false} ContainsWitness(s: string, sub: string) returns (i: int)
    requires Contains(s, sub)
    ensures OccursAt(s, sub, i)
    decreases |s|
  {
    if IsPrefix(sub, s) {
      i := 0;
    } else {
      var j := ContainsWitness(s[1..], sub);
      assert s[j + 1..j + 1 + |sub|] == s[1..][j..j + |sub|];
      i := j + 1;
    }
  }

  /** An occurrence anywhere is found by the scan. */
  lemma {:induction false} OccursImpliesContains(s: string, sub: string, i: int)
    requires OccursAt(s, sub, i)
    ensures Contains(s, sub)
    decreases i
  {
    if i > 0 {
      assert s[1..][i - 1..i - 1 + |sub|] == s[i..i + |sub|];
      OccursImpliesContains(s[1..], sub, i - 1);
    }
  }

  /** Number of occurrences of the character `c` in `s`. */
  function CountChar(s: string, c: char): nat
  {
    if |s| == 0 then 0 else (if s[0] == c then 1 else 0) + CountChar(s[1..], c)
  }

  /** Every occurrence of `c` in `s` replaced by `r`, all other characters kept in order. */
  function ReplaceAll(s: string, c: char, r: string): string
  {
    if |s| == 0 then "" else (if s[0] == c then r else [s[0]]) + ReplaceAll(s[1..], c, r)
  }

  /** Glue `parts` together with `sep` between consecutive parts. */
  function Join(parts: seq<string>, sep: string): string
  {
    if |parts| == 0 then ""
    else if |parts| == 1 then parts[0]
    else parts[0] + sep + Join(parts[1..], sep)
  }

  /** The maximal `c`-free segments of `s`, left to right; there is always at least one. */
  function SplitOn(s: string, c: char): (parts: seq<string>)
    ensures |parts| >= 1
  {
    if |s| == 0 then [""]
    else
      var rest := SplitOn(s[1..], c);
      if s[0] == c then [""] + rest else [[s[0]] + rest[0]] + rest[1..]
  }

  /** No element of `parts` contains the character `c`. */
  predicate Free(parts: seq<string>, c: char)
  {
    forall k :: 0 <= k < |parts| ==> c !in parts[k]
  }

  /** Splitting yields one more segment than there are separators, and no segment holds one. */
  lemma {:induction false} SplitOnShape(s: string, c: char)
    ensures |SplitOn(s, c)| == CountChar(s, c) + 1
    ensures Free(SplitOn(s, c), c)
    decreases |s|
  {
    if |s| > 0 {
      SplitOnShape(s[1..], c);
      var rest := SplitOn(s[1..], c);
      if s[0] != c {
        var parts := SplitOn(s, c);
        assert parts[0] == [s[0]] + rest[0];
        forall k | 0 <= k < |parts|
          ensures c !in parts[k]
        {
          if k > 0 {
            assert parts[k] == rest[k];
          }
        }
      }
    }
  }

  /** Joining on a one-separator string is prepending a character to the first part. */
  lemma JoinConsFirst(x: char, parts: seq<string>, sep: string)
    requires |parts| >= 1
    ensures Join([[x] + parts[0]] + parts[1..], sep) == [x] + Join(parts, sep)
  {
    var ps := [[x] + parts[0]] + parts[1..];
    if |parts| > 1 {
      assert ps[1..] == parts[1..];
    }
  }

  /** Replacing a character is splitting on it and joining with the replacement. */
  lemma {:induction false} ReplaceIsSplitJoin(s: string, c: char, r: string)
    ensures ReplaceAll(s, c, r) == Join(SplitOn(s, c), r)
    decreases |s|
  {
    if |s| > 0 {
      ReplaceIsSplitJoin(s[1..], c, r);
      var rest := SplitOn(s[1..], c);
      if s[0] == c {
        assert ([""] + rest)[1..] == rest;
      } else {
        JoinConsFirst(s[0], rest, r);
      }
    }
  }

  /** Splitting undoes joining on a single separator character, when no part contains it. */
  lemma {:induction false} SplitJoinRoundTrip(parts: seq<string>, c: char)
    requires |parts| >= 1
    requires Free(parts, c)
    ensures SplitOn(Join(parts, [c]), c) == parts
    decreases |parts|, |parts[0]|
  {
    if |parts[0]| > 0 {
      var x := parts[0][0];
      var tail := [parts[0][1..]] + parts[1..];
      assert parts[0] == [x] + tail[0];
      assert tail[1..] == parts[1..];
      JoinConsFirst(x, tail, [c]);
      assert parts == [[x] + tail[0]] + tail[1..];
      assert Join(parts, [c]) == [x] + Join(tail, [c]);
      assert Join(parts, [c])[1..] == Join(tail, [c]);
      assert x in parts[0];
      assert Free(tail, c) by {
        forall k | 0 <= k < |tail|
          ensures c !in tail[k]
        {
          if k == 0 {
            assert forall ch :: ch in tail[0] ==> ch in parts[0];
          } else {
            assert tail[k] == parts[k];
          }
        }
      }
      SplitJoinRoundTrip(tail, c);
    } else if |parts| > 1 {
      assert Join(parts, [c]) == [c] + Join(parts[1..], [c]);
      assert Join(parts, [c])[1..] == Join(parts[1..], [c]);
      assert Free(parts[1..], c) by {
        forall k | 0 <= k < |parts[1..]|
          ensures c !in parts[1..][k]
        {
          assert parts[1..][k] == parts[k + 1];
        }
      }
      SplitJoinRoundTrip(parts[1..], c);
      assert parts == [""] + parts[1..];
    } else {
      assert parts == [""];
    }
  }

  /** Joining the segments on the separator character gives back the original string. */
  lemma JoinSplitRoundTrip(s: string, c: char)
    ensures Join(SplitOn(s, c), [c]) == s
  {
    ReplaceIsSplitJoin(s, c, [c]);
    ReplaceWithItself(s, c);
  }

  /** Replacing a character by itself changes nothing. */
  lemma {:induction false} ReplaceWithItself(s: string, c: char)
    ensures ReplaceAll(s, c, [c]) == s
    decreases |s|
  {
    if |s| > 0 {
      ReplaceWithItself(s[1..], c);
      assert s == [s[0]] + s[1..];
    }
  }

  /** Replacing by a single character keeps the length and maps each position independently. */
  lemma {:induction false} ReplaceByCharPointwise(s: string, c: char, d: char)
    ensures |ReplaceAll(s, c, [d])| == |s|
    ensures forall i :: 0 <= i < |s| ==> ReplaceAll(s, c, [d])[i] == (if s[i] == c then d else s[i])
    decreases |s|
  {
    if |s| > 0 {
      ReplaceByCharPointwise(s[1..], c, d);
      var t := ReplaceAll(s, c, [d]);
      assert t == [if s[0] == c then d else s[0]] + ReplaceAll(s[1..], c, [d]);
      forall i | 1 <= i < |s|
        ensures t[i] == (if s[i] == c then d else s[i])
      {
        assert t[i] == ReplaceAll(s[1..], c, [d])[i - 1];
        assert s[1..][i - 1] == s[i];
      }
    }
  }

  /** After replacement, `c` survives nowhere unless the replacement itself contains it;
      and a character absent from both `s` and `r` stays absent. */
  lemma {:induction false} ReplaceRemoves(s: string, c: char, r: string, e: char)
    requires e !in r
    requires e == c || e !in s
    ensures e !in ReplaceAll(s, c, r)
    decreases |s|
  {
    if |s| > 0 {
      ReplaceRemoves(s[1..], c, r, e);
      assert e == c || e != s[0];
    }
  }

  /** Every replacement adds `|r| - 1` characters: the length counts the replaced characters. */
  lemma {:induction false} ReplaceLength(s: string, c: char, r: string)
    ensures |ReplaceAll(s, c, r)| == |s| - CountChar(s, c) + |r| * CountChar(s, c)
    decreases |s|
  {
    if |s| > 0 {
      ReplaceLength(s[1..], c, r);
    }
  }

  /** Replacing `c` by another single character leaves the count of a third character alone. */
  lemma {:induction false} ReplaceKeepsOtherCount(s: string, c: char, d: char, e: char)
    requires e != c && e != d
    ensures CountChar(ReplaceAll(s, c, [d]), e) == CountChar(s, e)
    decreases |s|
  {
    if |s| > 0 {
      ReplaceKeepsOtherCount(s[1..], c, d, e);
      var t := ReplaceAll(s, c, [d]);
      assert t == [if s[0] == c then d else s[0]] + ReplaceAll(s[1..], c, [d]);
      assert t[1..] == ReplaceAll(s[1..], c, [d]);
    }
  }

  /** Splitting invents no characters: whatever a segment holds occurs in the string. */
  lemma {:induction false} SplitOnKeepsChars(s: string, c: char)
    ensures forall k, ch :: 0 <= k < |SplitOn(s, c)| && ch in SplitOn(s, c)[k] ==> ch in s
    decreases |s|
  {
    if |s| > 0 {
      SplitOnKeepsChars(s[1..], c);
      var rest := SplitOn(s[1..], c);
      var parts := SplitOn(s, c);
      forall k, ch | 0 <= k < |parts| && ch in parts[k]
        ensures ch in s
      {
        if s[0] == c {
          if k > 0 {
            assert parts[k] == rest[k - 1];
            assert ch in s[1..];
          }
        } else if k == 0 {
          assert parts[0] == [s[0]] + rest[0];
          if ch != s[0] {
            assert ch in rest[0];
            assert ch in s[1..];
          }
        } else {
          assert parts[k] == rest[k];
          assert ch in s[1..];
        }
      }
    }
  }

  /** Joining with one more part at the end appends a separator and that part. */
  lemma {:induction false} JoinSnoc(parts: seq<string>, x: string, sep: string)
    ensures Join(parts + [x], sep) == if |parts| == 0 then x else Join(parts, sep) + sep + x
    decreases |parts|
  {
    if |parts| == 1 {
      assert (parts + [x])[1..] == [x];
    } else if |parts| > 1 {
      JoinSnoc(parts[1..], x, sep);
      assert (parts + [x])[1..] == parts[1..] + [x];
    } else {
      assert parts + [x] == [x];
    }
  }

  /** Five parts joined: each separator sits between two consecutive parts. */
  lemma JoinFive(a: string, b: string, c: string, d: string, e: string, sep: string)
    ensures Join([a, b, c, d, e], sep) == a + sep + b + sep + c + sep + d + sep + e
  {
    assert Join([d, e], sep) == d + sep + Join([e], sep) by { assert [d, e][1..] == [e]; }
    assert Join([c, d, e], sep) == c + sep + Join([d, e], sep) by { assert [c, d, e][1..] == [d, e]; }
    assert Join([b, c, d, e], sep) == b + sep + Join([c, d, e], sep) by { assert [b, c, d, e][1..] == [c, d, e]; }
    assert Join([a, b, c, d, e], sep) == a + sep + Join([b, c, d, e], sep) by { assert [a, b, c, d, e][1..] == [b, c, d, e]; }
  }

  /** Six parts joined: each separator sits between two consecutive parts. */
  lemma JoinSix(a: string, b: string, c: string, d: string, e: string, f: string, sep: string)
    ensures Join([a, b, c, d, e, f], sep) == a + sep + b + sep + c + sep + d + sep + e + sep + f
  {
    assert [a, b, c, d, e, f][1..] == [b, c, d, e, f];
    JoinFive(b, c, d, e, f, sep);
  }
}

=== FILE: warning.dfy ===
/** `weatherWarningFunc` of the class file: the storm-warning banner. It reads the
    cache file as it stands (no refresh), picks the first alert whose event names
    one of six severe phenomena, and renders that alert's description as a list,
    one item per `*`-separated segment. */
module Warning {
  import opened Wrappers
  import opened Strings
  import opened Weather

  /** The event names that make an alert worth a banner, matched case-sensitively. */
  const Keywords: seq<string> := ["Small Craft", "Gale", "Storm", "Hurricane", "Dense Fog", "Thunderstorm"]

  /** The `str_contains` chain of lines 119-124. */
  predicate IsSevere(event: string)
  {
    Contains(event, "Small Craft") || Contains(event, "Gale") || Contains(event, "Storm")
    || Contains(event, "Hurricane") || Contains(event, "Dense Fog") || Contains(event, "Thunderstorm")
  }

  /** An event is severe exactly when one of the keywords occurs in it at some position. */
  lemma SevereIffKeywordOccurs(event: string)
    ensures IsSevere(event) <==> exists k, i :: 0 <= k < |Keywords| && OccursAt(event, Keywords[k], i)
  {
    forall k | 0 <= k < |Keywords|
      ensures Contains(event, Keywords[k]) <==> exists i :: OccursAt(event, Keywords[k], i)
    {
      ContainsIffOccurs(event, Keywords[k]);
    }
    assert IsSevere(event) <==> exists k :: 0 <= k < |Keywords| && Contains(event, Keywords[k]) by {
      assert Keywords[0] == "Small Craft" && Keywords[1] == "Gale" && Keywords[2] == "Storm";
      assert Keywords[3] == "Hurricane" && Keywords[4] == "Dense Fog" && Keywords[5] == "Thunderstorm";
    }
  }

  /** The position of the first severe alert, if any: the `foreach` that returns on its first hit. */
  function FirstSevere(alerts: seq<Alert>): (r: Option<nat>)
    ensures r.Some? ==> r.value < |alerts| && IsSevere(alerts[r.value].event)
    ensures r.Some? ==> forall j :: 0 <= j < r.value ==> !IsSevere(alerts[j].event)
    ensures r.None? ==> forall j :: 0 <= j < |alerts| ==> !IsSevere(alerts[j].event)
  {
    if |alerts| == 0 then None
    else if IsSevere(alerts[0].event) then Some(0)
    else
      match FirstSevere(alerts[1..])
      case None => None
      case Some(i) => Some(i + 1)
  }

  /** Alerts after the first severe one never influence the choice. */
  lemma {:induction false} LaterAlertsIgnored(alerts: seq<Alert>, more: seq<Alert>)
    requires FirstSevere(alerts).Some?
    ensures FirstSevere(alerts + more) == FirstSevere(alerts)
  {
    var i := FirstSevere(alerts).value;
    assert (alerts + more)[i] == alerts[i];
    forall j | 0 <= j < i
      ensures !IsSevere((alerts + more)[j].event)
    {
      assert (alerts + more)[j] == alerts[j];
    }
    FirstSevereIs(alerts + more, i);
  }

  /** The first severe alert is pinned down by its own severity and the mildness of those before. */
  lemma {:induction false} FirstSevereIs(alerts: seq<Alert>, i: nat)
    requires i < |alerts| && IsSevere(alerts[i].event)
    requires forall j :: 0 <= j < i ==> !IsSevere(alerts[j].event)
    ensures FirstSevere(alerts) == Some(i)
    decreases i
  {
    if i > 0 {
      var tail := alerts[1..];
      assert tail[i - 1] == alerts[i];
      forall j | 0 <= j < i - 1
        ensures !IsSevere(tail[j].event)
      {
        assert tail[j] == alerts[j + 1];
      }
      FirstSevereIs(tail, i - 1);
    }
  }

  /** The marker that closes one list item and opens the next. */
  const ListBreak := "</li><li>"

  /** The first `preg_replace`: every newline becomes a space. */
  function NewlinesToSpaces(d: string): string
  {
    ReplaceAll(d, '\n', " ")
  }

  /** Both `preg_replace` calls: newlines to spaces, then each `*` to a list-item boundary. */
  function FormatDescription(d: string): string
  {
    ReplaceAll(NewlinesToSpaces(d), '*', ListBreak)
  }

  /** Replacing newlines by spaces keeps every other character in place. */
  lemma NewlinesToSpacesPointwise(d: string)
    ensures |NewlinesToSpaces(d)| == |d|
    ensures forall i :: 0 <= i < |d| ==> NewlinesToSpaces(d)[i] == (if d[i] == '\n' then ' ' else d[i])
    ensures '\n' !in NewlinesToSpaces(d)
  {
    ReplaceByCharPointwise(d, '\n', ' ');
    ReplaceRemoves(d, '\n', " ", '\n');
  }

  /** The formatted description is the `*`-separated segments of the newline-free text, in
      order, with a list-item boundary between consecutive segments: one boundary per `*`, no
      newline anywhere, and every other character kept in place within its segment. */
  lemma DescriptionItems(d: string)
    ensures var items := SplitOn(NewlinesToSpaces(d), '*');
      && FormatDescription(d) == Join(items, ListBreak)
      && |items| == CountChar(d, '*') + 1
      && Free(items, '*') && Free(items, '\n')
      && Join(items, "*") == NewlinesToSpaces(d)
    ensures '\n' !in FormatDescription(d)
    ensures |FormatDescription(d)| == |d| + 8 * CountChar(d, '*')
  {
    var t := NewlinesToSpaces(d);
    var items := SplitOn(t, '*');
    NewlinesToSpacesPointwise(d);
    ReplaceIsSplitJoin(t, '*', ListBreak);
    SplitOnShape(t, '*');
    ReplaceKeepsOtherCount(d, '\n', ' ', '*');
    JoinSplitRoundTrip(t, '*');
    SplitOnKeepsChars(t, '*');
    assert Free(items, '\n');
    ReplaceRemoves(t, '*', ListBreak, '\n');
    ReplaceLength(t, '*', ListBreak);
  }

  /** The banner for one alert: its event as heading, its formatted description as a list. */
  function WarningHtml(a: Alert, env: Env): string
  {
    "<article class=\"post-entry warning\">"
    + "<h2 class=\"post-title warning\">" + env.escHtml(a.event) + "</h2>"
    + "<ul><li>" + env.ksesPost(FormatDescription(a.description)) + "</li></ul>"
    + "</article>"
  }

  /** `weatherWarningFunc`: the cache file's text as it stands, `alertsOf` being its decoded
      `alerts` property (`None` when `isset` fails, malformed text included). */
  function WeatherWarningFunc(f: CacheFile, alertsOf: string -> Option<seq<Alert>>, env: Env): (html: string)
    ensures !f.present ==> html == ""
    ensures f.present && alertsOf(f.content).None? ==> html == ""
    ensures html != "" <==> f.present && alertsOf(f.content).Some?
                            && exists i :: 0 <= i < |alertsOf(f.content).value| && IsSevere(alertsOf(f.content).value[i].event)
    ensures html != "" ==> exists i :: 0 <= i < |alertsOf(f.content).value|
                            && IsSevere(alertsOf(f.content).value[i].event)
                            && (forall j :: 0 <= j < i ==> !IsSevere(alertsOf(f.content).value[j].event))
                            && html == WarningHtml(alertsOf(f.content).value[i], env)
  {
    if !f.present then ""
    else
      match alertsOf(f.content)
      case None => ""
      case Some(alerts) =>
        match FirstSevere(alerts)
        case None => ""
        case Some(i) => WarningHtml(alerts[i], env)
  }

  /** A mild alert followed by a severe one: the second is chosen, whatever comes after. Together
      with `MarineStatementIsMild` and `AdvisoryIsSevere` this is the worked example of a marine
      weather statement followed by a small craft advisory. */
  lemma MildThenSevere(a: Alert, b: Alert, more: seq<Alert>)
    requires !IsSevere(a.event) && IsSevere(b.event)
    ensures FirstSevere([a, b] + more) == Some(1)
  {
    FirstSevereIs([a, b], 1);
    LaterAlertsIgnored([a, b], more);
  }

  /** None of the keywords occurs in "Marine Weather Statement". */
  lemma MarineStatementIsMild()
    ensures !IsSevere("Marine Weather Statement")
  {
    MarineLacksWindKeywords();
    MarineLacksOtherKeywords();
  }

  /** "Small Craft", "Gale" and "Storm" do not occur in "Marine Weather Statement". */
  lemma MarineLacksWindKeywords()
    ensures !Contains("Marine Weather Statement", "Small Craft")
    ensures !Contains("Marine Weather Statement", "Gale")
    ensures !Contains("Marine Weather Statement", "Storm")
  {
    var m := "Marine Weather Statement";
    assert MismatchesAt(m, "Small Craft", 1) && MismatchesAt(m, "Gale", 0) && MismatchesAt(m, "Storm", 2);
    NotContained(m, "Small Craft", 1);
    NotContained(m, "Gale", 0);
    NotContained(m, "Storm", 2);
  }

  /** "Hurricane", "Dense Fog" and "Thunderstorm" do not occur in "Marine Weather Statement". */
  lemma MarineLacksOtherKeywords()
    ensures !Contains("Marine Weather Statement", "Hurricane")
    ensures !Contains("Marine Weather Statement", "Dense Fog")
    ensures !Contains("Marine Weather Statement", "Thunderstorm")
  {
    var m := "Marine Weather Statement";
    assert MismatchesAt(m, "Hurricane", 0) && MismatchesAt(m, "Dense Fog", 0) && MismatchesAt(m, "Thunderstorm", 0);
    NotContained(m, "Hurricane", 0);
    NotContained(m, "Dense Fog", 0);
    NotContained(m, "Thunderstorm", 0);
  }

  /** "Small Craft" opens "Small Craft Advisory". */
  lemma AdvisoryIsSevere()
    ensures IsSevere("Small Craft Advisory")
  {
    assert IsPrefix("Small Craft", "Small Craft Advisory");
  }

  /** Worked example: the description "A*B" becomes the two list items "A" and "B". */
  lemma TwoItemExample()
    ensures FormatDescription("A*B") == "A" + ListBreak + "B"
  {
    var t := NewlinesToSpaces("A*B");
    assert t == "A*B" by {
      NewlinesToSpacesPointwise("A*B");
    }
    assert ReplaceAll("B", '*', ListBreak) == "B";
    assert ReplaceAll("*B", '*', ListBreak) == ListBreak + "B";
  }

  /** Every position of `s` holding the first character of `sub` is followed, `j` places on,
      by something other than the `j`-th character of `sub`. */
  predicate MismatchesAt(s: string, sub: string, j: nat)
    requires j < |sub|
  {
    forall i :: 0 <= i < |s| && s[i] == sub[0] ==> i + j >= |s| || s[i + j] != sub[j]
  }

  /** A string that mismatches `sub` at every candidate start does not contain it. */
  lemma {:induction false} NotContained(s: string, sub: string, j: nat)
    requires j < |sub|
    requires MismatchesAt(s, sub, j)
    ensures !Contains(s, sub)
    decreases |s|
  {
    if |s| > 0 {
      NotContained(s[1..], sub, j);
      if |sub| <= |s| {
        if s[0] == sub[0] {
          assert s[..|sub|][j] != sub[j];
        } else {
          assert s[..|sub|][0] != sub[0];
        }
      }
    }
  }
}

=== FILE: weather.dfy ===
/** The data the plugin works on: shortcode parameters, the decoded One Call
    payload, the cache file, and the WordPress helpers the renderers call. */
module Weather {
  import opened Wrappers

  /** The four shortcode attributes after `shortcode_atts` has filled in the defaults. */
  datatype Params = Params(lon: string, lat: string, appid: string, locationname: string)

  /** The `weather[0]` entry of a reading: provider condition code and its text. */
  datatype Condition = Condition(id: int, description: string)

  /** The `current` object: temperature, condition, wind and observation time. */
  datatype Current = Current(temp: real, condition: Condition, windSpeed: real, windDeg: int, dt: int)

  /** One entry of `daily`: day temperature, condition, wind and forecast timestamp. */
  datatype Day = Day(dayTemp: real, condition: Condition, windSpeed: real, windDeg: int, dt: int)

  /** One entry of `alerts`. */
  datatype Alert = Alert(event: string, description: string)

  /** The decoded payload as the forecast widget reads it; `daily` keeps the provider's order. */
  datatype Snapshot = Snapshot(current: Current, daily: seq<Day>)

  /** The WordPress helpers the renderers call, left uninterpreted:
      `esc_html`, `esc_attr`, `wp_kses_post`, `round` followed by string conversion,
      `wp_date('l', t)`, `wp_date('j F Y g:i A', t)` and `plugin_dir_url(__FILE__)`. */
  datatype Env = Env(
    escHtml: string -> string,
    escAttr: string -> string,
    ksesPost: string -> string,
    rounded: real -> string,
    weekday: int -> string,
    stamp: int -> string,
    pluginUrl: string)

  /** The cache file `api-cache.json`: whether it is present, its text, and its last write time in
      seconds (`mtime` in the class file, `filectime` in functions.php; a write sets both). */
  datatype CacheFile = CacheFile(present: bool, content: string, mtime: int)

  /** What a call of the caching function ends in. `Died` is the `die` on a missing file;
      `DecodeOf(t)` returns `json_decode(t)`; `ErrorText(m)` returns the string `m`; `Thrown` is a
      PHP `Error` raised inside the function, which no caller catches. */
  datatype Outcome = Died | DecodeOf(text: string) | ErrorText(message: string) | Thrown

  /** One call of the caching function: the cache file afterwards, the URL requested if the
      provider was called, and the outcome. */
  datatype Step = Step(file: CacheFile, request: Option<string>, outcome: Outcome)

  /** The provider endpoint both revisions call. */
  const Endpoint := "https://api.openweathermap.org/data/3.0/onecall"

  /** The fixed fields of the query, the same in both revisions. */
  const ExcludeField := "exclude=minutely,hourly"
  const UnitsField := "units=imperial"
}

=== FILE: wrappers.dfy ===
/** The optional value used where the plugin's PHP returns nothing (`return;`)
    or a value that may be absent (`isset` on a decoded property). */
module Wrappers {

  datatype Option<+T> = None | Some(value: T) {

    /** The wrapped value, or `default` when there is none. */
    function GetOr(default: T): T
    {
      match this
      case Some(v) => v
      case None => default
    }
  }
}
